=== FILE: README.md ===
# Financial report summariser: extraction, prompt, retry and slides

The server (`app.js`) accepts an uploaded PDF of quarterly results and turns its text
into a summary. This project models the four parts of that pipeline that hold logic, as
pure Dafny functions and a few loop-based methods:

- **Metric extraction** (`Metrics`, on top of `Pattern` and `Text`). Eight
  case-insensitive regular expressions are each applied with `String.prototype.match`.
  Each takes the capture `([\d,.]+)` after a fixed label, or is `undefined`. Only the
  regex fragment the labels use is modelled: literal characters, `.` and `.*`, followed
  by the greedy capture. It has two readings:
  - a declarative one (`Matches`, `IsFirstMatch`);
  - a backtracking matcher that follows JavaScript's search order (`TryAt`, `FirstMatch`).
  
  The matcher is proved to compute a first match. The first match is proved unique for
  the labels in use.
- **Prompt assembly** (`Prompt`). One template line per truthy field, in field order,
  joined by newlines, between a fixed preamble and closing.
- **The retry contract of `chatWithGPT`** (`Chat`). The network is replaced by a script
  of simulated outcomes, one per attempt.
  - A 429 reply is retried after a 5000 ms delay while the counter is below 3.
  - Any other error, or a 429 at the limit, throws one fixed message.
  - A reply's content is returned unchanged.
  
  `ChatLoop` restates the recursion as a bounded loop and is proved equal to it.
- **Slide text** (`Slides`). The summary is split into sentences at `/\.\s+/` and each
  sentence into words at `/\s+/`, following the ECMAScript `RegExp.prototype[Symbol.split]`
  algorithm. Each word becomes a text run, white or randomly coloured, with a white space
  run between each two words. One slide is made per sentence, then a closing slide.

`Wrappers` holds `Option` and `Result`.

## Model

| member | source | states |
|---|---|---|
| `Pattern.FirstMatch` | app.js:211-218 | `text.match(re)?.[1]`: the result is a first match in the declarative sense: `None` exactly when the pattern matches nowhere, otherwise the capture of a match at the leftmost position that matches at all; a capture is a non-empty run of `[\d,.]` |
| `Pattern.Search` | app.js:211-218 | scanning from position `p`, a capture is found whenever the pattern matches at some position from `p` on, and a capture is a non-empty stretch `s[e..f]` of the text with `p <= e`, so at most `|s| - p` characters long |
| `Pattern.TryAt` | app.js:211-218 | a match of the pattern started at position `i` captures a non-empty stretch of the text that begins no earlier than `i` |
| `Pattern.Backtrack` | app.js:214-215 | a match of the label's remainder after a greedy `.*`, tried from the longest run of `.` down to the empty one, lies within the text and after the `.*`'s start |
| `Pattern.SearchIsFirst` | app.js:211-218 | scanning positions left to right and trying the label at each gives the first match of the text from that position |
| `Pattern.TryAtSound` | app.js:211-218 | a match the backtracking matcher reports is a real match of label and capture |
| `Pattern.TryAtComplete` | app.js:211-218 | when the pattern matches at a position at all, the backtracking matcher finds a match there |
| `Pattern.FirstMatchUnique` | app.js:211-218 | for an anchored label (every `.*` followed by literal characters or `.` up to a literal newline) two first matches of one text have the same capture |
| `Pattern.FirstMatchCharacterised` | app.js:211-218 | for an anchored label the matcher returns `r` if and only if `r` is the first match |
| `Pattern.FirstMatchCaseBlind` | app.js:211-218 | under the `i` flag, texts that differ only in ASCII letter case give the same capture |
| `Pattern.MatchNeedsNewline` | app.js:211-218 | a label that spells a newline matches only a stretch of text that contains one |
| `Pattern.NoNewlineNoCapture` | app.js:211-218 | in a text without a newline every such label captures nothing |
| `Pattern.LitsSpelled` | app.js:211-218 | a match of a label that opens with literal characters spells them, in some letter case, and then matches the rest of the label |
| `Pattern.LabelAtStartCaptured` | app.js:211 | a text that opens with a literal label in any letter case, then a character of `[\d,.]`, captures the maximal `[\d,.]` run after the label |
| `Pattern.LineEnd` | app.js:214-215 | a greedy `.*` from `i` stops at the first line terminator (`\n`, `\r`, U+2028, U+2029) or at the end of the text |
| `Pattern.NumberEnd` | app.js:211-218 | the greedy capture `[\d,.]+` stops at the first character outside the class |
| `Text.FoldKeepsClasses` | app.js:211-218 | characters equal under case folding agree on line terminators and on `[\d,.]`, and a `[\d,.]` character folds alike only with itself |
| `Metrics.ExtractField` | app.js:211-218 | each field holds the first match of its own pattern, and a present value is a number token |
| `Metrics.Rule` | app.js:211-218 | every label ends in a literal newline, so each value is read from the start of the line after its label |
| `Metrics.Extract` | app.js:210-219 | the `financialData` object: every field is the first match of its rule, and every present value is a non-empty run of `[\d,.]` |
| `Metrics.RuleShape` | app.js:211-218 | each of the eight labels is anchored and spells a newline |
| `Metrics.RunRuleShape` | app.js:214-215 | a label with `.*` followed by a literal line ending is anchored, because `.` cannot cross the newline |
| `Metrics.EpsRuleShape` | app.js:218 | the EPS label, whose unescaped `.` in `Rs.10` and `Rs.)` matches any non-terminator, is anchored and spells a newline |
| `Metrics.ExtractCharacterised` | app.js:210-219 | a field of the extracted record is `v` if and only if `v` is the first match of that field's pattern |
| `Metrics.ExtractCaseBlind` | app.js:211-218 | report texts that differ only in ASCII letter case extract alike |
| `Metrics.ExtractWithoutNewline` | app.js:210-219 | a text without a newline, the empty text included, yields the record with every field `undefined`, not an error |
| `Metrics.RevenueCaptured` | app.js:211 | a report opening with "Revenue From Operations" in any case, a newline and a number yields exactly that number as revenue |
| `Metrics.UnmatchedAbsent` | app.js:210-219 | a field whose pattern matches nowhere in the text is `undefined` |
| `Metrics.ReportMisses` | app.js:212-218 | in the text "Revenue From Operations\n1,234.50" no label but revenue's matches anywhere, so no pattern but revenue's does either |
| `Metrics.RevenueExample` | app.js:210-219 | the text "Revenue From Operations\n1,234.50" yields exactly the record with revenue "1,234.50" and every other field `undefined` |
| `Prompt.Present` | app.js:223-231 | a field is falsy exactly when it is `undefined` or the empty string, the values that `field && line` and `filter(Boolean)` drop |
| `Prompt.Template` | app.js:223-230 | every line reads "- The <name> is " followed by the value |
| `Prompt.PresentAmong` | app.js:222-231 | a field is kept exactly when it is in the list and truthy |
| `Prompt.PresentAmongIsSubsequence` | app.js:222-231 | the kept fields appear in the list's order: they are an order-preserving subsequence of the list |
| `Prompt.PresentAmongCounts` | app.js:222-231 | each truthy field is kept as often as it occurs in the list and a falsy one never; with the subsequence lemma, the kept fields are exactly the list with its falsy entries left out, repeats included |
| `Prompt.PresentAmongInOrder` | app.js:222-231 | the truthy fields of a list in field order are in field order |
| `Prompt.Parts` | app.js:222-231 | `promptParts` has as many lines as the record has truthy fields |
| `Prompt.PresentFields` | app.js:222-231 | the truthy fields of a record, each once, in field order, and no others |
| `Prompt.PartsMatchFields` | app.js:222-231 | `promptParts` has one line per truthy field, in field order, and each line is that field's template followed by its value |
| `Prompt.PartsAmongMatchFields` | app.js:222-231 | for any list of fields, there is one line per truthy field of the list, and line `i` is the template of the `i`-th truthy field of the list followed by its value |
| `Prompt.BuildPrompt` | app.js:233-237 | the prompt is the fixed preamble, then the lines joined by `\n`, then the fixed closing, each recoverable from the prompt by position |
| `Prompt.TemplateHasNoNewline` | app.js:223-230 | no template line spells a newline |
| `Prompt.BodySplitsIntoParts` | app.js:235 | when some field is truthy and no value spells a newline, splitting the joined body at newlines gives back exactly the lines |
| `Text.SplitJoin` | app.js:235 | `join('\n')` of a non-empty list of lines without a newline is undone by splitting at newlines (an empty list joins to `""`, which splits to `[""]`) |
| `Prompt.NothingPresentPrompt` | app.js:222-237 | with every field falsy there are no lines, and the prompt is the preamble followed by the closing |
| `Prompt.NumberRecordPrompt` | app.js:222-235 | for a record of number tokens, a field has a line exactly when it is present, and the body splits back into the lines |
| `Prompt.ExtractedPrompt` | app.js:210-237 | for the record extracted from any text, a field has a prompt line exactly when its pattern matched, and the body splits back into the lines |
| `Prompt.OnlyRevenuePrompt` | app.js:223 | a record with only revenue yields the single line "- The Revenue from Operations is " followed by the value |
| `Prompt.ReportPrompt` | app.js:210-231 | the text "Revenue From Operations\n1,234.50" gives the single prompt line "- The Revenue from Operations is 1,234.50" |
| `Chat.ChatWithGpt` | app.js:51-88 | a call makes between one and `Budget(retries) + 1` attempts and waits once between each two; the budget is `MAX_RETRIES - retries` for a counter of at most 3 and 0 above it |
| `Chat.Retryable` | app.js:80 | only an error whose response has status 429 is retried, and only while the counter is 0, 1 or 2 |
| `Chat.RunShape` | app.js:75-87 | the whole retry contract: attempt `k` is made with counter `retries + k` and meets outcome `k`; every attempt but the last met a retryable 429 and the last did not; every delay is 5000 ms; the result is the last reply's content, or the fixed failure message |
| `Chat.AttemptBound` | app.js:51 | a default call makes at most four attempts and waits at most three times |
| `Chat.RateLimitedThroughout` | app.js:80-85 | under nothing but 429s a call makes exactly four attempts, waits 5000 ms three times, and throws |
| `Chat.OtherErrorEndsCall` | app.js:84-86 | an error other than 429, including one without a response, ends the call after that attempt with the failure message |
| `Chat.FirstReplyReturned` | app.js:76-77 | a successful first attempt returns its content and nothing else is attempted |
| `Chat.FailuresLookAlike` | app.js:85 | every failing call throws the same message |
| `Chat.LoopRetryStep` | app.js:80-83 | a retrying turn of the loop keeps the loop in step with the recursion |
| `Chat.LoopFinalStep` | app.js:76-86 | the loop's last turn returns what the recursive call returns |
| `Chat.ChatLoop` | app.js:54-88 | a loop with an explicit counter produces exactly the attempts, delays and result of the recursive call |
| `Slides.SepLen` | app.js:141-145 | `/\s+/` matches exactly at a white space character and `/\.\s+/` exactly at a full stop followed by one |
| `Slides.SepLenIsMaximalRun` | app.js:141-145 | both patterns are greedy: a match covers the whole run of white space and stops before a non-space |
| `Slides.SpaceRunIsMaximal` | app.js:141-145 | the run of `\s` from a position is all white space and not followed by any |
| `Slides.SplitFrom` | app.js:141-145 | the split loop yields at least one piece |
| `Slides.Split` | app.js:141-145 | `split` yields at least one piece and equals the declarative reading: the text before the first match, then the pieces of what follows that match, or the whole text when nothing matches |
| `Slides.PiecesHaveNoSep` | app.js:141-145 | no piece of a split holds a match of the separator |
| `Slides.Sentences` | app.js:141 | `summary.split(/\.\s+/)` gives at least one sentence, and no sentence holds a full stop followed by white space |
| `Slides.Words` | app.js:145 | `sentence.split(/\s+/)` gives at least one word, and no word holds white space |
| `Slides.PiecesAt` | app.js:141-145 | with the first match at `i`, the first piece is the text before `i` and the rest are the pieces after the match |
| `Slides.PiecesNone` | app.js:141-145 | a text without a match is its own single piece |
| `Slides.WordsHaveNoSpace` | app.js:145 | no word of `sentence.split(/\s+/)` contains white space |
| `Slides.WordsOfJoin` | app.js:145 | splitting at white space undoes joining with single spaces for non-empty words without white space |
| `Slides.WordsCollapse` | app.js:145-155 | joining the words with single spaces gives the sentence with every run of white space collapsed to one space |
| `Slides.Collapse` | app.js:145-155 | every white space character of the collapsed text is a plain space |
| `Slides.RandomColour` | app.js:181-188 | `randomColor()` gives six upper-case hex digits, digit `k` being `letters[draw k]` |
| `Slides.EveryColourReachable` | app.js:181-188 | every six-digit upper-case hex colour comes out of some draws |
| `Slides.PaintColour` | app.js:149-153 | a word's colour is a valid colour, and white when the 10% test did not pick it |
| `Slides.WordRun` | app.js:149-153 | a word's run carries the word at font size 20 in a valid colour: white unless the 10% test picked the word, otherwise the colour `randomColor` draws |
| `Slides.Interleave` | app.js:148-156 | `n` words give `2n - 1` runs, and none for no words |
| `Slides.InterleaveLaidOut` | app.js:148-156 | word `k` sits at run `2k` in its colour at font size 20, a white space run follows every word but the last, and the runs show the words joined by single spaces |
| `Slides.LayoutSentence` | app.js:146-157 | the `words.forEach` loop builds exactly that layout |
| `Slides.GenerateSlides` | app.js:141-166 | one slide per sentence, in order, each titled "Financial Summary" and holding its sentence's laid-out words, then the closing slide "Thank You!\nDeepak Joshi" |
| `Slides.SlideShowsSentence` | app.js:143-161 | a sentence's slide shows the sentence with every run of white space collapsed to one space |

## Left out

- HTTP routing, static directories, body parsing and the multer upload (app.js:25-33, 90-120, 205-208, 239, 251-275) are not modelled. Nor is the 503 reply of the upload handler (app.js:257-260).
- PDF text extraction with `pdf-parse` (app.js:102-105) is not modelled. The extracted text is the input of `Metrics.Extract`.
- `localSummarize` (app.js:18-22) is not modelled; it is never called.
- Text to speech with `say` (app.js:35-48) is not modelled: it is I/O only.
- The request `chatWithGPT` posts (URL, headers, API key, model and messages, app.js:55-73) is not modelled. Each attempt is reduced to its outcome: a reply's content, or an error with or without an HTTP status. A reply body without `choices[0].message` throws a `TypeError` inside the `try`. That error has no `response`, so it is modelled as an error without a status. A message without `content` would return `undefined`; a modelled reply always carries a string.
- Chat.ChatWithGpt requires the script of outcomes to cover every attempt the call may make. The script stands for the network, so this bounds the simulated environment, not the caller.
- The five-second `setTimeout` (app.js:82) is recorded as a delay value. Time itself is not modelled. Console logging is not modelled.
- The thrown `Error` carries only the fixed message (app.js:85). The underlying cause is not attached, and the model does not attach it either.
- Slides.GenerateSlides: the slide master, layout, placeholder geometry, the `addText` positions and options, and the closing slide's font size 36 and colour (app.js:124-138, 161, 166) are not modelled. Writing the file (app.js:168-177) is not modelled either. The model keeps the slides' titles, text runs and closing text.
- `Math.random()` is a parameter. The 10% test for each word and its colour draws are the `Paint` given per word. The six draws of `randomColor` are a sequence of numbers below 16. Probabilities are not modelled.
- Pattern.FirstMatch models only the regex fragment the eight labels use: literal characters, `.`, `.*` and the trailing capture. Case folding is ASCII upper-casing, which is exact for these ASCII labels.
- Pattern.FirstMatch reads the text as a sequence of Unicode scalar values, not UTF-16 code units. The patterns have no `u` flag, so JavaScript's `.` matches one code unit. The model's `.` therefore accepts one astral character (outside the Basic Multilingual Plane) where JavaScript would need two `.`s. For example, "Earning Per Share (of Rs\U{1F4B0}10 each)\nBasic (Rs.)\n5.2" yields EPS "5.2" in the model but no EPS in JavaScript. Lone surrogates cannot be represented. Texts within the Basic Multilingual Plane, the usual output of PDF text extraction, read the same either way.

=== FILE: chat.dfy ===
/** The retry contract of `chatWithGPT` (app.js:51-88). Each attempt posts
    the same chat-completion request; the network is replaced by a script of
    simulated outcomes, one per attempt, and the five-second `setTimeout`
    by a recorded delay between consecutive attempts. */
module Chat {
  import opened Wrappers

  const MaxRetries: nat := 3
  const RetryDelayMs: nat := 5000

  /** The one message every failure throws, whatever the cause. */
  const FailureMessage: string :=
    "Max retries reached or other error encountered. Please try again later."

  /** How one `axios.post` attempt ends, as far as the retry logic can tell:
      a reply carrying `choices[0].message.content`, or a thrown error with
      the HTTP status of its `response`, or `None` when it has no `response`
      object (a network failure, or a malformed reply body). */
  datatype Outcome = Reply(content: string) | Error(status: Option<int>)

  /** One attempt: the value of the `retries` argument when it was made and
      how it ended. */
  datatype Attempt = Attempt(retries: nat, outcome: Outcome)

  /** A whole call: its attempts in order, the delays waited between them,
      and what it returned or threw. */
  datatype Run = Run(attempts: seq<Attempt>, delays: seq<nat>, result: Result<string, string>)

  /** The guard of app.js:80: an error with a response whose status is 429,
      while the retry counter is below `MaxRetries`. */
  predicate Retryable(o: Outcome, retries: nat): (b: bool)
    ensures b <==> o == Error(Some(429)) && retries in {0, 1, 2}
  {
    o.Error? && o.status == Some(429) && retries < MaxRetries
  }

  /** How many more retries a call with counter `retries` may still make. */
  function Budget(retries: nat): nat
  {
    if retries < MaxRetries then MaxRetries - retries else 0
  }

  /** `chatWithGPT(retries)` run against `script`, whose
      k-th element is how its k-th attempt ends. The script must cover every
      attempt the call may make. The call makes at least one and at most
      `Budget(retries) + 1` attempts and waits once between each two;
      `RunShape` states what the attempts and the result are. */
  function ChatWithGpt(script: seq<Outcome>, retries: nat := 0): (run: Run)
    requires |script| > Budget(retries)
    ensures 1 <= |run.attempts| <= Budget(retries) + 1
    ensures |run.delays| == |run.attempts| - 1
    decreases Budget(retries)
  {
    var attempt := Attempt(retries, script[0]);
    match script[0]
    case Reply(content) => Run([attempt], [], Success(content))
    case Error(status) =>
      if status == Some(429) && retries < MaxRetries then
        var rest := ChatWithGpt(script[1..], retries + 1);
        Run([attempt] + rest.attempts, [RetryDelayMs] + rest.delays, rest.result)
      else
        Run([attempt], [], Failure(FailureMessage))
  }

  /** The whole retry contract of `run` against `script`, starting from
      counter `retries`: the counter rises by one per attempt and the k-th
      attempt meets the k-th scripted outcome; every attempt before the last
      met a retryable 429 and the last did not; every delay is
      `RetryDelayMs`; the call returns the last attempt's content verbatim
      when it was a reply, and throws `FailureMessage` otherwise. */
  ghost predicate Shaped(script: seq<Outcome>, retries: nat, run: Run)
  {
    var n := |run.attempts|;
    && 1 <= n <= |script|
    && (forall k :: 0 <= k < n ==> run.attempts[k] == Attempt(retries + k, script[k]))
    && (forall k :: 0 <= k < n - 1 ==> Retryable(run.attempts[k].outcome, run.attempts[k].retries))
    && !Retryable(script[n - 1], retries + n - 1)
    && (forall k :: 0 <= k < |run.delays| ==> run.delays[k] == RetryDelayMs)
    && (script[n - 1].Reply? ==> run.result == Success(script[n - 1].content))
    && (script[n - 1].Error? ==> run.result == Failure(FailureMessage))
  }

  /** `chatWithGPT` keeps the whole retry contract. */
  lemma {:induction false} RunShape(script: seq<Outcome>, retries: nat)
    requires |script| > Budget(retries)
    ensures Shaped(script, retries, ChatWithGpt(script, retries))
    decreases Budget(retries)
  {
    if Retryable(script[0], retries) {
      RetryUnfolds(script, retries);
      RunShape(script[1..], retries + 1);
      ShapedStep(script, retries, ChatWithGpt(script, retries), ChatWithGpt(script[1..], retries + 1));
    } else {
      StopUnfolds(script, retries);
    }
  }

  /** A retryable head outcome in front of a shaped remainder. */
  lemma ShapedStep(script: seq<Outcome>, retries: nat, run: Run, rest: Run)
    requires |script| >= 1 && Retryable(script[0], retries)
    requires Shaped(script[1..], retries + 1, rest)
    requires run == Run([Attempt(retries, script[0])] + rest.attempts, [RetryDelayMs] + rest.delays, rest.result)
    ensures Shaped(script, retries, run)
  {
    var n := |run.attempts|;
    assert script[1..][n - 2] == script[n - 1];
    forall k | 1 <= k < n
      ensures run.attempts[k] == Attempt(retries + k, script[k])
    {
      assert run.attempts[k] == rest.attempts[k - 1];
      assert script[1..][k - 1] == script[k];
    }
    forall k | 0 <= k < |run.delays|
      ensures run.delays[k] == RetryDelayMs
    {
      if k > 0 {
        assert run.delays[k] == rest.delays[k - 1];
      }
    }
  }

  /** A call with the default counter makes at most `MaxRetries + 1` = 4
      attempts and waits at most three times. */
  lemma AttemptBound(script: seq<Outcome>)
    requires |script| > MaxRetries
    ensures |ChatWithGpt(script).attempts| <= MaxRetries + 1
    ensures |ChatWithGpt(script).delays| <= MaxRetries
  {
  }

  /** Under nothing but 429 responses the call makes exactly `MaxRetries`
      retries, waiting before each, and then throws. */
  lemma RateLimitedThroughout(script: seq<Outcome>)
    requires |script| > MaxRetries
    requires forall k :: 0 <= k < |script| ==> script[k] == Error(Some(429))
    ensures |ChatWithGpt(script).attempts| == MaxRetries + 1
    ensures ChatWithGpt(script).delays == [RetryDelayMs, RetryDelayMs, RetryDelayMs]
    ensures ChatWithGpt(script).result == Failure(FailureMessage)
  {
    var run := ChatWithGpt(script);
    RunShape(script, 0);
    assert !Retryable(script[|run.attempts| - 1], |run.attempts| - 1);
  }

  /** Any error that is not a 429, including one without a response, ends
      the call after that single attempt, with no retry. */
  lemma OtherErrorEndsCall(script: seq<Outcome>, retries: nat)
    requires |script| > Budget(retries)
    requires script[0].Error? && script[0].status != Some(429)
    ensures ChatWithGpt(script, retries)
      == Run([Attempt(retries, script[0])], [], Failure(FailureMessage))
  {
  }

  /** A first attempt that succeeds is returned unchanged, and nothing else
      is attempted. */
  lemma FirstReplyReturned(script: seq<Outcome>, retries: nat)
    requires |script| > Budget(retries)
    requires script[0].Reply?
    ensures ChatWithGpt(script, retries)
      == Run([Attempt(retries, script[0])], [], Success(script[0].content))
  {
  }

  /** Every failure is reported with the same message: two failing calls
      cannot be told apart by what they throw. */
  lemma FailuresLookAlike(s1: seq<Outcome>, s2: seq<Outcome>)
    requires |s1| > MaxRetries && |s2| > MaxRetries
    requires ChatWithGpt(s1).result.Failure?
    requires ChatWithGpt(s2).result.Failure?
    ensures ChatWithGpt(s1).result == ChatWithGpt(s2).result
  {
    RunShape(s1, 0);
    RunShape(s2, 0);
  }

  /** One retry, seen from the caller: a retryable 429 at the head of the
      script adds one attempt and one delay in front of the rest of the call. */
  lemma RetryUnfolds(script: seq<Outcome>, retries: nat)
    requires |script| > Budget(retries)
    requires Retryable(script[0], retries)
    ensures var next := ChatWithGpt(script[1..], retries + 1);
      ChatWithGpt(script, retries)
        == Run([Attempt(retries, script[0])] + next.attempts,
               [RetryDelayMs] + next.delays, next.result)
  {
  }

  /** A head outcome that is not retryable ends the call at once. */
  lemma StopUnfolds(script: seq<Outcome>, retries: nat)
    requires |script| > Budget(retries)
    requires !Retryable(script[0], retries)
    ensures ChatWithGpt(script, retries)
      == Run([Attempt(retries, script[0])], [],
             if script[0].Reply? then Success(script[0].content) else Failure(FailureMessage))
  {
  }

  lemma ConcatAssoc<T>(a: seq<T>, b: seq<T>, c: seq<T>)
    ensures a + (b + c) == (a + b) + c
  {
  }

  /** What remains of the call once `made` attempts and `waited` delays are
      behind it and the counter stands at `retries`. */
  ghost predicate LoopAgrees(script: seq<Outcome>,
                             retries: nat, made: seq<Attempt>, waited: seq<nat>)
    requires |script| > MaxRetries && retries <= MaxRetries
  {
    var rest := ChatWithGpt(script[retries..], retries);
    ChatWithGpt(script) == Run(made + rest.attempts, waited + rest.delays, rest.result)
  }

  /** Before the first turn nothing has been attempted. */
  lemma LoopStarts(script: seq<Outcome>)
    requires |script| > MaxRetries
    ensures LoopAgrees(script, 0, [], [])
  {
    var run := ChatWithGpt(script);
    assert script[0..] == script;
    assert [] + run.attempts == run.attempts;
    assert [] + run.delays == run.delays;
  }

  /** One turn of the loop keeps it in step with the recursive call. */
  lemma LoopRetryStep(script: seq<Outcome>,
                      retries: nat, made: seq<Attempt>, waited: seq<nat>)
    requires |script| > MaxRetries && retries <= MaxRetries
    requires LoopAgrees(script, retries, made, waited)
    requires Retryable(script[retries], retries)
    ensures LoopAgrees(script, retries + 1,
      made + [Attempt(retries, script[retries])],
      waited + [RetryDelayMs])
  {
    var attempt := Attempt(retries, script[retries]);
    RetryUnfolds(script[retries..], retries);
    assert script[retries..][1..] == script[retries + 1..];
    var next := ChatWithGpt(script[retries + 1..], retries + 1);
    ConcatAssoc(made, [attempt], next.attempts);
    ConcatAssoc(waited, [RetryDelayMs], next.delays);
  }

  /** The loop's last turn returns what the recursive call returns. */
  lemma LoopFinalStep(script: seq<Outcome>,
                      retries: nat, made: seq<Attempt>, waited: seq<nat>)
    requires |script| > MaxRetries && retries <= MaxRetries
    requires LoopAgrees(script, retries, made, waited)
    requires !Retryable(script[retries], retries)
    ensures ChatWithGpt(script)
      == Run(made + [Attempt(retries, script[retries])], waited,
             if script[retries].Reply? then Success(script[retries].content) else Failure(FailureMessage))
  {
    var rest := script[retries..];
    assert rest[0] == script[retries];
    StopUnfolds(rest, retries);
    LastAttempt(ChatWithGpt(script), made, waited, ChatWithGpt(rest, retries));
  }

  /** A call whose remainder is a single attempt ends with that attempt. */
  lemma LastAttempt(whole: Run, made: seq<Attempt>, waited: seq<nat>, last: Run)
    requires whole == Run(made + last.attempts, waited + last.delays, last.result)
    requires |last.attempts| == 1 && last.delays == []
    ensures whole == Run(made + [last.attempts[0]], waited, last.result)
  {
    assert last.attempts == [last.attempts[0]];
    assert waited + [] == waited;
  }

  /** The recursion of `chatWithGPT` rewritten as an explicit bounded loop
      with an attempt counter; it behaves exactly like the recursive call. */
  method ChatLoop(script: seq<Outcome>) returns (run: Run)
    requires |script| > MaxRetries
    ensures run == ChatWithGpt(script)
  {
    var made: seq<Attempt> := [];
    var waited: seq<nat> := [];
    var retries: nat := 0;
    LoopStarts(script);
    while true
      invariant retries <= MaxRetries
      invariant LoopAgrees(script, retries, made, waited)
      decreases MaxRetries - retries
    {
      var outcome := script[retries];
      if outcome.Error? && outcome.status == Some(429) && retries < MaxRetries {
        LoopRetryStep(script, retries, made, waited);
        made := made + [Attempt(retries, outcome)];
        waited := waited + [RetryDelayMs];
        retries := retries + 1;
      } else {
        LoopFinalStep(script, retries, made, waited);
        var result := if outcome.Reply? then Success(outcome.content) else Failure(FailureMessage);
        return Run(made + [Attempt(retries, outcome)], waited, result);
      }
    }
  }
}

=== FILE: metrics.dfy ===
/** The inline metric extraction of the `/upload` handler (app.js:210-219):
    eight label-anchored patterns, each applied to the text of the uploaded
    report with `String.prototype.match`; a field whose pattern does not
    match is `undefined`, which is not an error. */
module Metrics {
  import opened Wrappers
  import opened Text
  import opened Pattern

  /** The eight fields of the record, in the order the prompt lists them. */
  datatype Field =
    | Revenue
    | NetProfitBeforeTax
    | NetProfitAfterTax
    | TotalComprehensiveIncome
    | EquityShareCapital
    | NetWorth
    | OutstandingDebt
    | Eps

  const FieldOrder: seq<Field> := [
    Revenue, NetProfitBeforeTax, NetProfitAfterTax, TotalComprehensiveIncome,
    EquityShareCapital, NetWorth, OutstandingDebt, Eps
  ]

  /** The position of a field in `FieldOrder`. */
  function Index(f: Field): (i: nat)
    ensures i < |FieldOrder| && FieldOrder[i] == f
  {
    match f
    case Revenue => 0
    case NetProfitBeforeTax => 1
    case NetProfitAfterTax => 2
    case TotalComprehensiveIncome => 3
    case EquityShareCapital => 4
    case NetWorth => 5
    case OutstandingDebt => 6
    case Eps => 7
  }

  /** The label of each field's pattern; the capture `([\d,.]+)` follows.
      `\[.*\]` and `.*` stay on the label's line because `.` refuses line
      terminators; the unescaped `.` of `Rs.10` and `Rs.)` is `AnyChar`.
      Every label ends in a literal newline, so a value is read from the
      start of the line after its label. */
  function Rule(f: Field): (lab: Label)
    ensures |lab| > 0 && lab[|lab| - 1] == Lit('\n')
  {
    match f
    case Revenue => Lits("Revenue From Operations\n")
    case NetProfitBeforeTax =>
      Lits("Net Profit for the period (before Tax and Exceptional items)\n")
    case NetProfitAfterTax =>
      Lits("Net Profit for the period after Tax (after Exceptional items)\n")
    case TotalComprehensiveIncome =>
      Lits("Total Comprehensive Income for the period [") + ([AnyRun] + Lits("]\n"))
    case EquityShareCapital =>
      Lits("Paid up Equity Share Capital") + ([AnyRun] + Lits("\n"))
    case NetWorth => Lits("Net Worth\n")
    case OutstandingDebt => Lits("Paid up Debt Capital/Outstanding Debt\n")
    case Eps =>
      Lits("Earning Per Share (of Rs") + [AnyChar] + Lits("10 each)\nBasic (Rs")
      + [AnyChar] + Lits(")\n")
  }

  /** The `financialData` object: one optional numeric string per field. */
  datatype FinancialRecord = FinancialRecord(
    revenue: Option<string>,
    netProfitBeforeTax: Option<string>,
    netProfitAfterTax: Option<string>,
    totalComprehensiveIncome: Option<string>,
    equityShareCapital: Option<string>,
    netWorth: Option<string>,
    outstandingDebt: Option<string>,
    eps: Option<string>)
  {
    function Get(f: Field): Option<string>
    {
      match f
      case Revenue => revenue
      case NetProfitBeforeTax => netProfitBeforeTax
      case NetProfitAfterTax => netProfitAfterTax
      case TotalComprehensiveIncome => totalComprehensiveIncome
      case EquityShareCapital => equityShareCapital
      case NetWorth => netWorth
      case OutstandingDebt => outstandingDebt
      case Eps => eps
    }
  }

  /** The record with every field absent. */
  const NoMetrics := FinancialRecord(None, None, None, None, None, None, None, None)

  /** A captured value: a non-empty string of digits, commas and full stops. */
  predicate IsNumberToken(v: string)
  {
    |v| > 0 && forall m :: 0 <= m < |v| ==> IsNumChar(v[m])
  }

  /** `text.match(re)?.[1]` for the field's rule. */
  function ExtractField(f: Field, text: string): (r: Option<string>)
    ensures IsFirstMatch(Rule(f), text, r)
    ensures r.Some? ==> IsNumberToken(r.value)
  {
    FirstMatch(Rule(f), text)
  }

  /** The record whose field `f` is `value(f)`. */
  function Tabulate(value: Field -> Option<string>): (rec: FinancialRecord)
    ensures forall f :: rec.Get(f) == value(f)
  {
    FinancialRecord(
      value(Revenue), value(NetProfitBeforeTax), value(NetProfitAfterTax),
      value(TotalComprehensiveIncome), value(EquityShareCapital), value(NetWorth),
      value(OutstandingDebt), value(Eps))
  }

  /** Extracts the record from the report text: every field holds the first
      match of its own rule, and every present field is a number token. */
  function Extract(text: string): (rec: FinancialRecord)
    ensures forall f :: IsFirstMatch(Rule(f), text, rec.Get(f))
    ensures forall f :: rec.Get(f).Some? ==> IsNumberToken(rec.Get(f).value)
  {
    Tabulate(f => ExtractField(f, text))
  }

  /** `[AnyRun] + Lits(w)` is anchored when `w` is a line ending in a newline. */
  lemma RunThenLineAnchored(w: string)
    requires |w| > 0 && w[|w| - 1] == '\n'
    requires forall m :: 0 <= m < |w| - 1 ==> !IsLineTerminator(w[m])
    ensures Anchored([AnyRun] + Lits(w))
  {
    LitsLineTail(w);
    NoRunAnchored(Lits(w));
    assert ([AnyRun] + Lits(w))[1..] == Lits(w);
  }

  lemma {:induction false} LitsLineTail(w: string)
    requires |w| > 0 && w[|w| - 1] == '\n'
    requires forall m :: 0 <= m < |w| - 1 ==> !IsLineTerminator(w[m])
    ensures LineTail(Lits(w))
    decreases |w|
  {
    if w[0] != '\n' {
      assert Lits(w)[1..] == Lits(w[1..]);
      LitsLineTail(w[1..]);
    }
  }

  lemma LitsNoRun(w: string)
    ensures NoRun(Lits(w))
  {
  }

  lemma NoRunJoin(p: Label, q: Label)
    requires NoRun(p) && NoRun(q)
    ensures NoRun(p + q)
  {
    forall m | 0 <= m < |p + q|
      ensures !(p + q)[m].AnyRun?
    {
      if m >= |p| {
        assert (p + q)[m] == q[m - |p|];
      }
    }
  }

  /** A label without `.*` that ends in a newline is anchored. */
  lemma LineRuleShape(lab: Label)
    requires NoRun(lab) && |lab| > 0 && lab[|lab| - 1] == Lit('\n')
    ensures Anchored(lab) && Lit('\n') in lab
  {
    NoRunAnchored(lab);
  }

  lemma LitsLineShape(w: string)
    requires |w| > 0 && w[|w| - 1] == '\n'
    ensures Anchored(Lits(w)) && Lit('\n') in Lits(w)
  {
    LitsNoRun(w);
    LineRuleShape(Lits(w));
  }

  /** A label, `.*`, then a line ending in a newline, as in app.js:214-215. */
  lemma RunRuleShape(head: string, w: string)
    requires |w| > 0 && w[|w| - 1] == '\n'
    requires forall m :: 0 <= m < |w| - 1 ==> !IsLineTerminator(w[m])
    ensures Anchored(Lits(head) + ([AnyRun] + Lits(w)))
    ensures Lit('\n') in Lits(head) + ([AnyRun] + Lits(w))
  {
    RunThenLineAnchored(w);
    LitsNoRun(head);
    AnchoredPrefix(Lits(head), [AnyRun] + Lits(w));
    var lab := Lits(head) + ([AnyRun] + Lits(w));
    assert lab[|lab| - 1] == Lit('\n');
  }

  lemma EpsRuleShape()
    ensures Anchored(Rule(Eps)) && Lit('\n') in Rule(Eps)
  {
    var a, b, c := Lits("Earning Per Share (of Rs"), Lits("10 each)\nBasic (Rs"), Lits(")\n");
    LitsNoRun("Earning Per Share (of Rs");
    LitsNoRun("10 each)\nBasic (Rs");
    LitsNoRun(")\n");
    NoRunJoin(a, [AnyChar]);
    NoRunJoin(a + [AnyChar], b);
    NoRunJoin(a + [AnyChar] + b, [AnyChar]);
    NoRunJoin(a + [AnyChar] + b + [AnyChar], c);
    var lab := a + [AnyChar] + b + [AnyChar] + c;
    assert lab[|lab| - 1] == c[1];
    LineRuleShape(lab);
  }

  /** Every rule is anchored and spells out a newline. */
  lemma RuleShape(f: Field)
    ensures Anchored(Rule(f))
    ensures Lit('\n') in Rule(f)
  {
    match f
    case Revenue => LitsLineShape("Revenue From Operations\n");
    case NetProfitBeforeTax =>
      LitsLineShape("Net Profit for the period (before Tax and Exceptional items)\n");
    case NetProfitAfterTax =>
      LitsLineShape("Net Profit for the period after Tax (after Exceptional items)\n");
    case TotalComprehensiveIncome =>
      RunRuleShape("Total Comprehensive Income for the period [", "]\n");
    case EquityShareCapital => RunRuleShape("Paid up Equity Share Capital", "\n");
    case NetWorth => LitsLineShape("Net Worth\n");
    case OutstandingDebt => LitsLineShape("Paid up Debt Capital/Outstanding Debt\n");
    case Eps => EpsRuleShape();
  }

  /** The extracted record is exactly the declarative one: a field holds `v`
      if and only if `v` is the first match of that field's rule. */
  lemma ExtractCharacterised(text: string, f: Field, v: Option<string>)
    ensures Extract(text).Get(f) == v <==> IsFirstMatch(Rule(f), text, v)
  {
    RuleShape(f);
    if IsFirstMatch(Rule(f), text, v) {
      FirstMatchUnique(Rule(f), text, Extract(text).Get(f), v);
    }
  }

  /** Label matching ignores letter case. */
  lemma ExtractCaseBlind(s: string, t: string)
    requires SameUpToCase(s, t)
    ensures Extract(s) == Extract(t)
  {
    forall f: Field ensures FirstMatch(Rule(f), s) == FirstMatch(Rule(f), t) {
      FirstMatchCaseBlind(Rule(f), s, t);
    }
  }

  /** A text without a newline, the empty text in particular, yields the
      record with every field absent, and that is not an error. */
  lemma ExtractWithoutNewline(text: string)
    requires '\n' !in text
    ensures Extract(text) == NoMetrics
  {
    forall f: Field ensures FirstMatch(Rule(f), text) == None {
      RuleShape(f);
      NoNewlineNoCapture(Rule(f), text);
    }
  }

  /** A report that opens with "Revenue From Operations" in any letter case,
      a newline and a number token yields exactly that token as revenue. */
  lemma RevenueCaptured(heading: string, n: string, rest: string)
    requires SameUpToCase(heading, "Revenue From Operations\n")
    requires IsNumberToken(n)
    requires rest == [] || !IsNumChar(rest[0])
    ensures Extract(heading + n + rest).revenue == Some(n)
  {
    var w := "Revenue From Operations\n";
    var text := heading + n + rest;
    assert forall m :: 0 <= m < |w| ==> text[m] == heading[m];
    assert forall m :: |w| <= m < |w| + |n| ==> text[m] == n[m - |w|];
    assert text[|w|] == n[0];
    assert |rest| > 0 ==> text[|w| + |n|] == rest[0];
    LabelAtStartCaptured(w, text);
    var e := NumberEnd(text, |w|);
    assert e == |w| + |n|;
    assert text[|w|..e] == n;
  }

  /** The report text of the worked example: one heading line, then the
      revenue figure. */
  const RevenueReport: string := "Revenue From Operations\n" + "1,234.50"

  /** Its one line break ends the heading, and `p` is its fifteenth character. */
  lemma ReportLines()
    ensures |RevenueReport| == 32 && RevenueReport[14] == 'p'
    ensures forall m :: 0 <= m < |RevenueReport| && RevenueReport[m] == '\n' ==> m == 23
  {
  }

  /** A label whose literal head is longer than the text matches nowhere. */
  lemma HeadTooLong(w: string, rest: Label, s: string, q: nat, e: nat)
    requires |w| > |s|
    ensures !Matches(Lits(w) + rest, s, q, e)
  {
    if Matches(Lits(w) + rest, s, q, e) {
      LitsSpelled(w, rest, s, q, e);
    }
  }

  /** A label that spells a newline after its literal head matches nowhere
      in a text without a newline past the head's length. */
  lemma NewlineTooLate(w: string, rest: Label, s: string, q: nat, e: nat)
    requires Lit('\n') in rest
    requires forall m :: |w| <= m < |s| ==> s[m] != '\n'
    ensures !Matches(Lits(w) + rest, s, q, e)
  {
    if Matches(Lits(w) + rest, s, q, e) {
      LitsSpelled(w, rest, s, q, e);
      MatchNeedsNewline(rest, s, q + |w|, e);
    }
  }

  /** "Net Worth\n" needs an `N` nine characters before a newline. */
  lemma NetWorthMisses(s: string, q: nat, e: nat)
    requires 14 < |s| && s[14] == 'p'
    requires forall m :: 0 <= m < |s| && s[m] == '\n' ==> m == 14 + 9
    ensures !Matches(Rule(NetWorth), s, q, e)
  {
    var w := "Net Worth\n";
    assert Rule(NetWorth) == Lits(w) + [];
    if Matches(Lits(w) + [], s, q, e) {
      LitsSpelled(w, [], s, q, e);
    }
  }

  /** No rule but revenue's matches anywhere in the worked example: the long
      labels do not fit, "Net Worth" would need its newline where the heading
      has `p`, and the others need a newline after the only one there is. */
  lemma ReportMisses(f: Field, q: nat, e: nat, g: nat)
    requires f != Revenue
    ensures !Matches(Rule(f), RevenueReport, q, e)
    ensures !MatchAt(Rule(f), RevenueReport, q, e, g)
  {
    var s := RevenueReport;
    ReportLines();
    match f
    case NetProfitBeforeTax =>
      var w := "Net Profit for the period (before Tax and Exceptional items)\n";
      assert Rule(f) == Lits(w) + [];
      HeadTooLong(w, [], s, q, e);
    case NetProfitAfterTax =>
      var w := "Net Profit for the period after Tax (after Exceptional items)\n";
      assert Rule(f) == Lits(w) + [];
      HeadTooLong(w, [], s, q, e);
    case OutstandingDebt =>
      var w := "Paid up Debt Capital/Outstanding Debt\n";
      assert Rule(f) == Lits(w) + [];
      HeadTooLong(w, [], s, q, e);
    case TotalComprehensiveIncome =>
      HeadTooLong("Total Comprehensive Income for the period [", [AnyRun] + Lits("]\n"), s, q, e);
    case NetWorth =>
      NetWorthMisses(s, q, e);
    case EquityShareCapital =>
      var rest := [AnyRun] + Lits("\n");
      assert rest[1] == Lit('\n');
      NewlineTooLate("Paid up Equity Share Capital", rest, s, q, e);
    case Eps =>
      EpsMisses(s, q, e);
  }

  /** The EPS label spells its first newline 24 characters in. */
  lemma EpsMisses(s: string, q: nat, e: nat)
    requires forall m :: 24 <= m < |s| ==> s[m] != '\n'
    ensures !Matches(Rule(Eps), s, q, e)
  {
    var a, b, c := Lits("Earning Per Share (of Rs"), Lits("10 each)\nBasic (Rs"), Lits(")\n");
    var rest := [AnyChar] + b + [AnyChar] + c;
    assert Rule(Eps) == a + rest;
    assert rest[|rest| - 1] == Lit('\n');
    NewlineTooLate("Earning Per Share (of Rs", rest, s, q, e);
  }

  /** The worked example yields revenue "1,234.50". */
  lemma ReportRevenue()
    ensures Extract(RevenueReport).revenue == Some("1,234.50")
  {
    var n := "1,234.50";
    FigureIsNumber();
    RevenueCaptured("Revenue From Operations\n", n, "");
    assert "Revenue From Operations\n" + n + "" == "Revenue From Operations\n" + n;
  }

  lemma FigureIsNumber()
    ensures IsNumberToken("1,234.50")
  {
  }

  /** A field whose rule matches nowhere in the text is absent. */
  lemma UnmatchedAbsent(text: string, f: Field)
    requires forall q: nat, e: nat, g: nat :: !MatchAt(Rule(f), text, q, e, g)
    ensures Extract(text).Get(f) == None
  {
    ExtractCharacterised(text, f, None);
  }

  /** The worked example yields no other field. */
  lemma ReportOthersAbsent(f: Field)
    requires f != Revenue
    ensures Extract(RevenueReport).Get(f) == None
  {
    forall q: nat, e: nat, g: nat
      ensures !MatchAt(Rule(f), RevenueReport, q, e, g)
    {
      ReportMisses(f, q, e, g);
    }
    UnmatchedAbsent(RevenueReport, f);
  }

  /** A record is determined by its fields. */
  lemma RecordOfFields(rec: FinancialRecord, v: string)
    requires rec.Get(Revenue) == Some(v)
    requires forall f :: f != Revenue ==> rec.Get(f) == None
    ensures rec == FinancialRecord(Some(v), None, None, None, None, None, None, None)
  {
    assert rec.Get(NetProfitBeforeTax) == None && rec.Get(NetProfitAfterTax) == None;
    assert rec.Get(TotalComprehensiveIncome) == None && rec.Get(EquityShareCapital) == None;
    assert rec.Get(NetWorth) == None && rec.Get(OutstandingDebt) == None && rec.Get(Eps) == None;
  }

  /** The worked example: the report text "Revenue From Operations\n1,234.50"
      yields revenue "1,234.50" and no other field. */
  lemma RevenueExample()
    ensures Extract(RevenueReport)
      == FinancialRecord(Some("1,234.50"), None, None, None, None, None, None, None)
  {
    var rec := Extract(RevenueReport);
    ReportRevenue();
    forall f | f != Revenue
      ensures rec.Get(f) == None
    {
      ReportOthersAbsent(f);
    }
    RecordOfFields(rec, "1,234.50");
  }
}

=== FILE: pattern.dfy ===
/** The fragment of JavaScript regular expressions the metric extractor uses:
    a case-insensitive label made of literal characters, `.` and `.*`, followed
    by the capture `([\d,.]+)`, searched with `String.prototype.match` (no `g`
    flag), which returns the capture of the leftmost match.

    Two readings are given. `Matches`/`IsFirstMatch` say declaratively which
    texts the pattern describes and which capture counts as the first one;
    `TryAt`/`FirstMatch` follow the backtracking order of the JavaScript
    matcher (greedy `.*`, tried longest first). The lemmas show that the
    matcher computes a first match, and that the first match is unique for
    the anchored labels the extractor uses. */
module Pattern {
  import opened Wrappers
  import opened Text

  /** One label element: a literal character (compared case-insensitively),
      `.` (any one character but a line terminator), or `.*` (a run of them). */
  datatype Elem = Lit(c: char) | AnyChar | AnyRun

  /** A label; the capture `([\d,.]+)` always follows it. */
  type Label = seq<Elem>

  /** The label that matches the characters of `w` literally. */
  function Lits(w: string): Label
  {
    seq(|w|, i requires 0 <= i < |w| => Lit(w[i]))
  }

  /** Whether a single-character element accepts `c`. */
  predicate Accepts(e: Elem, c: char)
  {
    match e
    case Lit(p) => Fold(c) == Fold(p)
    case AnyChar => !IsLineTerminator(c)
    case AnyRun => false
  }

  // ---------------------------------------------------------------------
  // Declarative reading
  // ---------------------------------------------------------------------

  /** No line terminator in `s[i..k]`. */
  ghost predicate LineFree(s: string, i: nat, k: nat)
    requires i <= k <= |s|
  {
    forall m :: i <= m < k ==> !IsLineTerminator(s[m])
  }

  /** The label `lab` matches `s[i..j]`. */
  ghost predicate Matches(lab: Label, s: string, i: nat, j: nat)
    decreases |lab|
  {
    && i <= j <= |s|
    && if lab == [] then i == j
       else if lab[0].AnyRun? then
         exists k :: i <= k <= j && LineFree(s, i, k) && Matches(lab[1..], s, k, j)
       else i < |s| && Accepts(lab[0], s[i]) && Matches(lab[1..], s, i + 1, j)
  }

  /** `s[e..f]` is a maximal non-empty run of `[\d,.]`: what the greedy
      capture `([\d,.]+)` takes when it starts at `e`. */
  ghost predicate IsNumberRun(s: string, e: nat, f: nat)
  {
    && e < f <= |s|
    && (forall m :: e <= m < f ==> IsNumChar(s[m]))
    && (f == |s| || !IsNumChar(s[f]))
  }

  /** The whole pattern matches from `p`: the label spans `s[p..e]` and the
      capture spans `s[e..f]`. */
  ghost predicate MatchAt(lab: Label, s: string, p: nat, e: nat, f: nat)
  {
    Matches(lab, s, p, e) && IsNumberRun(s, e, f)
  }

  /** The pattern matches nowhere before position `p`. */
  ghost predicate NoMatchBefore(lab: Label, s: string, p: nat)
  {
    forall q: nat, e: nat, f: nat :: q < p ==> !MatchAt(lab, s, q, e, f)
  }

  /** `r` is what `s.match(re)?.[1]` may yield: `None` when the pattern
      matches nowhere, otherwise the capture of a match at the leftmost
      position where it matches at all. */
  ghost predicate IsFirstMatch(lab: Label, s: string, r: Option<string>)
  {
    match r
    case None => forall p: nat, e: nat, f: nat :: !MatchAt(lab, s, p, e, f)
    case Some(v) =>
      exists p: nat, e: nat, f: nat :: MatchAt(lab, s, p, e, f) && v == s[e..f] && NoMatchBefore(lab, s, p)
  }

  // ---------------------------------------------------------------------
  // The backtracking matcher
  // ---------------------------------------------------------------------

  /** The first line terminator at or after `i` (or `|s|`): where a greedy
      `.*` starting at `i` stops. */
  function LineEnd(s: string, i: nat): (t: nat)
    requires i <= |s|
    ensures i <= t <= |s|
    ensures forall m :: i <= m < t ==> !IsLineTerminator(s[m])
    ensures t < |s| ==> IsLineTerminator(s[t])
    decreases |s| - i
  {
    if i == |s| || IsLineTerminator(s[i]) then i else LineEnd(s, i + 1)
  }

  /** The end of the run of `[\d,.]` starting at `e`: where the greedy
      capture stops. */
  function NumberEnd(s: string, e: nat): (f: nat)
    requires e <= |s|
    ensures e <= f <= |s|
    ensures forall m :: e <= m < f ==> IsNumChar(s[m])
    ensures f < |s| ==> !IsNumChar(s[f])
    decreases |s| - e
  {
    if e == |s| || !IsNumChar(s[e]) then e else NumberEnd(s, e + 1)
  }

  /** The match the JavaScript matcher finds when it starts the label at `i`:
      the bounds of the capture, or `None`. */
  function TryAt(lab: Label, s: string, i: nat): (r: Option<(nat, nat)>)
    requires i <= |s|
    ensures r.Some? ==> i <= r.value.0 < r.value.1 <= |s|
    decreases |lab|, |s| + 1
  {
    if lab == [] then
      if i < |s| && IsNumChar(s[i]) then Some((i, NumberEnd(s, i))) else None
    else if lab[0].AnyRun? then
      Backtrack(lab[1..], s, i, LineEnd(s, i))
    else if i < |s| && Accepts(lab[0], s[i]) then
      TryAt(lab[1..], s, i + 1)
    else None
  }

  /** The greedy `.*` gave up characters down to `k`: try the rest of the
      label there, then at `k - 1`, ..., down to `lo`. */
  function Backtrack(rest: Label, s: string, lo: nat, k: nat): (r: Option<(nat, nat)>)
    requires lo <= k <= |s|
    ensures r.Some? ==> lo <= r.value.0 < r.value.1 <= |s|
    decreases |rest| + 1, k - lo
  {
    match TryAt(rest, s, k)
    case Some(m) => Some(m)
    case None => if k == lo then None else Backtrack(rest, s, lo, k - 1)
  }

  /** `s.match(re)?.[1]` from position `p` on: the capture of the first
      position where the matcher succeeds. */
  function Search(lab: Label, s: string, p: nat): (r: Option<string>)
    requires p <= |s|
    ensures forall q :: p <= q <= |s| && TryAt(lab, s, q).Some? ==> r.Some?
    ensures r.Some? ==> 0 < |r.value| <= |s| - p
    ensures r.Some? ==> exists e, f :: p <= e < f <= |s| && r.value == s[e..f]
    decreases |s| - p
  {
    match TryAt(lab, s, p)
    case Some((e, f)) => Some(s[e..f])
    case None => if p == |s| then None else Search(lab, s, p + 1)
  }

  /** `s.match(re)?.[1]`: absent when nothing matches, otherwise a non-empty
      run of `[\d,.]`, and always a first match in the declarative sense. */
  function FirstMatch(lab: Label, s: string): (r: Option<string>)
    ensures IsFirstMatch(lab, s, r)
    ensures r.Some? ==> |r.value| > 0 && forall m :: 0 <= m < |r.value| ==> IsNumChar(r.value[m])
  {
    SearchIsFirst(lab, s, 0);
    Search(lab, s, 0)
  }

  // ---------------------------------------------------------------------
  // The matcher agrees with the declarative reading
  // ---------------------------------------------------------------------

  /** What the matcher returns is a match. */
  lemma {:induction false} TryAtSound(lab: Label, s: string, i: nat)
    requires i <= |s|
    ensures TryAt(lab, s, i).Some? ==> MatchAt(lab, s, i, TryAt(lab, s, i).value.0, TryAt(lab, s, i).value.1)
    decreases |lab|, |s| + 1
  {
    var r := TryAt(lab, s, i);
    if r.Some? {
      var (e, f) := r.value;
      if lab == [] {
      } else if lab[0].AnyRun? {
        var t := LineEnd(s, i);
        BacktrackSound(lab[1..], s, i, t);
        var k :| i <= k <= t && MatchAt(lab[1..], s, k, e, f);
        assert LineFree(s, i, k);
      } else {
        TryAtSound(lab[1..], s, i + 1);
      }
    }
  }

  /** What backtracking returns is a match of the rest of the label from
      some position between `lo` and `k`. */
  lemma {:induction false} BacktrackSound(rest: Label, s: string, lo: nat, k: nat)
    requires lo <= k <= |s|
    ensures var r := Backtrack(rest, s, lo, k);
      r.Some? ==> exists k' :: lo <= k' <= k && MatchAt(rest, s, k', r.value.0, r.value.1)
    decreases |rest| + 1, k - lo
  {
    var r := Backtrack(rest, s, lo, k);
    if TryAt(rest, s, k).Some? {
      TryAtSound(rest, s, k);
    } else if k > lo {
      BacktrackSound(rest, s, lo, k - 1);
    }
  }

  /** Backtracking finds a match whenever the rest of the label matches at
      some position it tries. */
  lemma {:induction false} BacktrackFinds(rest: Label, s: string, lo: nat, k: nat, k0: nat)
    requires lo <= k0 <= k <= |s|
    requires TryAt(rest, s, k0).Some?
    ensures Backtrack(rest, s, lo, k).Some?
    decreases k - k0
  {
    if k > k0 && TryAt(rest, s, k).None? {
      BacktrackFinds(rest, s, lo, k - 1, k0);
    }
  }

  /** The matcher misses no match. */
  lemma {:induction false} TryAtComplete(lab: Label, s: string, i: nat, e: nat, f: nat)
    requires MatchAt(lab, s, i, e, f)
    ensures TryAt(lab, s, i).Some?
    decreases |lab|
  {
    if lab == [] {
    } else if lab[0].AnyRun? {
      var k :| i <= k <= e && LineFree(s, i, k) && Matches(lab[1..], s, k, e);
      TryAtComplete(lab[1..], s, k, e, f);
      var t := LineEnd(s, i);
      assert k <= t;
      BacktrackFinds(lab[1..], s, i, t, k);
    } else {
      TryAtComplete(lab[1..], s, i + 1, e, f);
    }
  }

  /** Searching from `p`, with no match before `p`, finds a first match. */
  lemma {:induction false} SearchIsFirst(lab: Label, s: string, p: nat)
    requires p <= |s|
    requires NoMatchBefore(lab, s, p)
    ensures IsFirstMatch(lab, s, Search(lab, s, p))
    decreases |s| - p
  {
    match TryAt(lab, s, p)
    case Some((e, f)) =>
      TryAtSound(lab, s, p);
      assert MatchAt(lab, s, p, e, f);
    case None =>
      forall e: nat, f: nat ensures !MatchAt(lab, s, p, e, f) {
        if MatchAt(lab, s, p, e, f) {
          TryAtComplete(lab, s, p, e, f);
        }
      }
      if p == |s| {
        forall q: nat, e: nat, f: nat ensures !MatchAt(lab, s, q, e, f) {
          if q > p {
            assert !Matches(lab, s, q, e);
          }
        }
      } else {
        SearchIsFirst(lab, s, p + 1);
      }
  }

  // ---------------------------------------------------------------------
  // Anchored labels have exactly one first match
  // ---------------------------------------------------------------------

  /** Literal non-terminator characters and `.` up to a literal newline: a
      tail that pins a preceding `.*` to the end of its line. */
  predicate LineTail(lab: Label)
    decreases |lab|
  {
    && |lab| > 0
    && match lab[0]
       case Lit(c) => c == '\n' || (!IsLineTerminator(c) && LineTail(lab[1..]))
       case AnyChar => LineTail(lab[1..])
       case AnyRun => false
  }

  /** The offset of the newline that ends a line tail. */
  function TailLen(lab: Label): nat
    requires LineTail(lab)
    decreases |lab|
  {
    if lab[0] == Lit('\n') then 0 else 1 + TailLen(lab[1..])
  }

  /** Every `.*` in the label is followed by a line tail. */
  predicate Anchored(lab: Label)
    decreases |lab|
  {
    lab == [] || ((lab[0].AnyRun? ==> LineTail(lab[1..])) && Anchored(lab[1..]))
  }

  /** A line tail that matches from `k` puts its newline on the first line
      terminator at or after `k`. */
  lemma {:induction false} TailPinsLineEnd(rest: Label, s: string, k: nat, j: nat)
    requires LineTail(rest)
    requires Matches(rest, s, k, j)
    ensures LineEnd(s, k) == k + TailLen(rest)
    decreases |rest|
  {
    if rest[0] == Lit('\n') {
      assert Fold(s[k]) == Fold('\n');
      assert s[k] == '\n';
    } else {
      assert !IsLineTerminator(s[k]) by {
        if rest[0].Lit? {
          FoldKeepsClasses(s[k], rest[0].c);
        }
      }
      TailPinsLineEnd(rest[1..], s, k + 1, j);
    }
  }

  /** Skipping a terminator-free stretch does not move the end of the line. */
  lemma {:induction false} LineEndSkip(s: string, i: nat, k: nat)
    requires i <= k <= |s|
    requires LineFree(s, i, k)
    ensures LineEnd(s, i) == LineEnd(s, k)
    decreases k - i
  {
    if i < k {
      LineEndSkip(s, i + 1, k);
    }
  }

  /** An anchored label matches from a given position in at most one way. */
  lemma {:induction false} MatchEndUnique(lab: Label, s: string, i: nat, j1: nat, j2: nat)
    requires Anchored(lab)
    requires Matches(lab, s, i, j1) && Matches(lab, s, i, j2)
    ensures j1 == j2
    decreases |lab|
  {
    if lab == [] {
    } else if lab[0].AnyRun? {
      var rest := lab[1..];
      var k1 :| i <= k1 <= j1 && LineFree(s, i, k1) && Matches(rest, s, k1, j1);
      var k2 :| i <= k2 <= j2 && LineFree(s, i, k2) && Matches(rest, s, k2, j2);
      TailPinsLineEnd(rest, s, k1, j1);
      TailPinsLineEnd(rest, s, k2, j2);
      LineEndSkip(s, i, k1);
      LineEndSkip(s, i, k2);
      MatchEndUnique(rest, s, k1, j1, j2);
    } else {
      MatchEndUnique(lab[1..], s, i + 1, j1, j2);
    }
  }

  /** A maximal run is fixed by where it starts. */
  lemma NumberRunUnique(s: string, e: nat, f1: nat, f2: nat)
    requires IsNumberRun(s, e, f1) && IsNumberRun(s, e, f2)
    ensures f1 == f2
  {
  }

  /** For an anchored label the first match is unique: `IsFirstMatch` is a
      function of the text. */
  lemma FirstMatchUnique(lab: Label, s: string, r1: Option<string>, r2: Option<string>)
    requires Anchored(lab)
    requires IsFirstMatch(lab, s, r1) && IsFirstMatch(lab, s, r2)
    ensures r1 == r2
  {
    if r1.Some? && r2.Some? {
      var p1: nat, e1: nat, f1: nat :| MatchAt(lab, s, p1, e1, f1) && r1.value == s[e1..f1] && NoMatchBefore(lab, s, p1);
      var p2: nat, e2: nat, f2: nat :| MatchAt(lab, s, p2, e2, f2) && r2.value == s[e2..f2] && NoMatchBefore(lab, s, p2);
      assert p1 == p2;
      MatchEndUnique(lab, s, p1, e1, e2);
      NumberRunUnique(s, e1, f1, f2);
    }
  }

  /** For an anchored label, `FirstMatch` is exactly the declarative first
      match: it returns `r` if and only if `r` is a first match. */
  lemma FirstMatchCharacterised(lab: Label, s: string, r: Option<string>)
    requires Anchored(lab)
    ensures FirstMatch(lab, s) == r <==> IsFirstMatch(lab, s, r)
  {
    if IsFirstMatch(lab, s, r) {
      FirstMatchUnique(lab, s, FirstMatch(lab, s), r);
    }
  }

  // ---------------------------------------------------------------------
  // Building anchored labels
  // ---------------------------------------------------------------------

  /** The label has no `.*`. */
  predicate NoRun(lab: Label)
  {
    forall m :: 0 <= m < |lab| ==> !lab[m].AnyRun?
  }

  /** Elements without `.*` in front of an anchored label keep it anchored. */
  lemma {:induction false} AnchoredPrefix(p: Label, q: Label)
    requires NoRun(p) && Anchored(q)
    ensures Anchored(p + q)
    decreases |p|
  {
    if |p| == 0 {
      assert p + q == q;
    } else {
      assert (p + q)[1..] == p[1..] + q;
      AnchoredPrefix(p[1..], q);
    }
  }

  /** A label without `.*` is anchored. */
  lemma NoRunAnchored(lab: Label)
    requires NoRun(lab)
    ensures Anchored(lab)
  {
    AnchoredPrefix(lab, []);
    assert lab + [] == lab;
  }

  // ---------------------------------------------------------------------
  // Consequences for the extractor
  // ---------------------------------------------------------------------

  /** `t` differs from `s` at most in the case of ASCII letters. */
  ghost predicate SameUpToCase(s: string, t: string)
  {
    |s| == |t| && forall m :: 0 <= m < |s| ==> Fold(s[m]) == Fold(t[m])
  }

  lemma {:induction false} LineEndCaseBlind(s: string, t: string, i: nat)
    requires SameUpToCase(s, t) && i <= |s|
    ensures LineEnd(s, i) == LineEnd(t, i)
    decreases |s| - i
  {
    if i < |s| {
      FoldKeepsClasses(s[i], t[i]);
      if !IsLineTerminator(s[i]) {
        LineEndCaseBlind(s, t, i + 1);
      }
    }
  }

  lemma {:induction false} NumberEndCaseBlind(s: string, t: string, e: nat)
    requires SameUpToCase(s, t) && e <= |s|
    ensures NumberEnd(s, e) == NumberEnd(t, e)
    decreases |s| - e
  {
    if e < |s| {
      FoldKeepsClasses(s[e], t[e]);
      if IsNumChar(s[e]) {
        NumberEndCaseBlind(s, t, e + 1);
      }
    }
  }

  /** The matcher finds the same capture bounds in texts that differ only in
      letter case. */
  lemma {:induction false} TryAtCaseBlind(lab: Label, s: string, t: string, i: nat)
    requires SameUpToCase(s, t) && i <= |s|
    ensures TryAt(lab, s, i) == TryAt(lab, t, i)
    decreases |lab|, |s| + 1
  {
    if lab == [] {
      if i < |s| {
        FoldKeepsClasses(s[i], t[i]);
        NumberEndCaseBlind(s, t, i);
      }
    } else if lab[0].AnyRun? {
      LineEndCaseBlind(s, t, i);
      BacktrackCaseBlind(lab[1..], s, t, i, LineEnd(s, i));
    } else {
      if i < |s| {
        FoldKeepsClasses(s[i], t[i]);
        assert Accepts(lab[0], s[i]) <==> Accepts(lab[0], t[i]);
        TryAtCaseBlind(lab[1..], s, t, i + 1);
      }
    }
  }

  lemma {:induction false} BacktrackCaseBlind(rest: Label, s: string, t: string, lo: nat, k: nat)
    requires SameUpToCase(s, t) && lo <= k <= |s|
    ensures Backtrack(rest, s, lo, k) == Backtrack(rest, t, lo, k)
    decreases |rest| + 1, k - lo
  {
    TryAtCaseBlind(rest, s, t, k);
    if k > lo {
      BacktrackCaseBlind(rest, s, t, lo, k - 1);
    }
  }

  lemma {:induction false} SearchCaseBlind(lab: Label, s: string, t: string, p: nat)
    requires SameUpToCase(s, t) && p <= |s|
    ensures Search(lab, s, p) == Search(lab, t, p)
    decreases |s| - p
  {
    TryAtCaseBlind(lab, s, t, p);
    if TryAt(lab, s, p).Some? {
      CaptureCaseBlind(lab, s, t, p);
    } else if p < |s| {
      SearchCaseBlind(lab, s, t, p + 1);
    }
    SearchStep(lab, s, t, p);
  }

  /** Searches that meet the same matches and captures at `p`, and agree
      from `p + 1` on, agree from `p`. */
  lemma SearchStep(lab: Label, s: string, t: string, p: nat)
    requires p <= |s| == |t|
    requires TryAt(lab, s, p) == TryAt(lab, t, p)
    requires TryAt(lab, s, p).Some? ==>
      s[TryAt(lab, s, p).value.0..TryAt(lab, s, p).value.1]
      == t[TryAt(lab, s, p).value.0..TryAt(lab, s, p).value.1]
    requires TryAt(lab, s, p).None? && p < |s| ==> Search(lab, s, p + 1) == Search(lab, t, p + 1)
    ensures Search(lab, s, p) == Search(lab, t, p)
  {
  }

  /** A capture is digits, commas and dots, which case leaves alone. */
  lemma CaptureCaseBlind(lab: Label, s: string, t: string, p: nat)
    requires SameUpToCase(s, t) && p <= |s| && TryAt(lab, s, p).Some?
    ensures s[TryAt(lab, s, p).value.0..TryAt(lab, s, p).value.1]
         == t[TryAt(lab, s, p).value.0..TryAt(lab, s, p).value.1]
  {
    var (e, f) := TryAt(lab, s, p).value;
    TryAtSound(lab, s, p);
    forall m | e <= m < f
      ensures s[m] == t[m]
    {
      FoldKeepsClasses(s[m], t[m]);
    }
    assert s[e..f] == t[e..f];
  }

  /** Label matching ignores letter case: texts that differ only in the case
      of ASCII letters yield the same capture. */
  lemma FirstMatchCaseBlind(lab: Label, s: string, t: string)
    requires SameUpToCase(s, t)
    ensures FirstMatch(lab, s) == FirstMatch(lab, t)
  {
    SearchCaseBlind(lab, s, t, 0);
  }

  /** A label that spells out a newline only matches across a newline. */
  lemma {:induction false} MatchNeedsNewline(lab: Label, s: string, i: nat, j: nat)
    requires Lit('\n') in lab
    requires Matches(lab, s, i, j)
    ensures exists m :: i <= m < j && s[m] == '\n'
    decreases |lab|
  {
    if lab[0] == Lit('\n') {
      assert Fold(s[i]) == Fold('\n');
      assert s[i] == '\n';
    } else if lab[0].AnyRun? {
      var k :| i <= k <= j && LineFree(s, i, k) && Matches(lab[1..], s, k, j);
      assert Lit('\n') in lab[1..];
      MatchNeedsNewline(lab[1..], s, k, j);
    } else {
      assert Lit('\n') in lab[1..];
      MatchNeedsNewline(lab[1..], s, i + 1, j);
    }
  }

  /** In a text without a newline such a label captures nothing. */
  lemma NoNewlineNoCapture(lab: Label, s: string)
    requires Lit('\n') in lab
    requires '\n' !in s
    ensures FirstMatch(lab, s) == None
  {
    var r := FirstMatch(lab, s);
    if r.Some? {
      var p: nat, e: nat, f: nat :| MatchAt(lab, s, p, e, f) && r.value == s[e..f] && NoMatchBefore(lab, s, p);
      MatchNeedsNewline(lab, s, p, e);
    }
  }

  /** Text that spells a literal label (in any letter case) from `i` on
      matches it there. */
  lemma {:induction false} LitsMatch(w: string, s: string, i: nat)
    requires i + |w| <= |s|
    requires forall m :: 0 <= m < |w| ==> Fold(s[i + m]) == Fold(w[m])
    ensures Matches(Lits(w), s, i, i + |w|)
    decreases |w|
  {
    if |w| > 0 {
      assert Lits(w)[1..] == Lits(w[1..]);
      assert Fold(s[i]) == Fold(w[0]);
      forall m | 0 <= m < |w[1..]|
        ensures Fold(s[i + 1 + m]) == Fold(w[1..][m])
      {
        assert Fold(s[i + (m + 1)]) == Fold(w[m + 1]);
      }
      LitsMatch(w[1..], s, i + 1);
    }
  }

  /** The converse: a match of a label that opens with literal characters
      spells them (in some letter case) and then matches the rest. */
  lemma {:induction false} LitsSpelled(w: string, rest: Label, s: string, i: nat, j: nat)
    requires Matches(Lits(w) + rest, s, i, j)
    ensures i + |w| <= j && Matches(rest, s, i + |w|, j)
    ensures forall m :: 0 <= m < |w| ==> Fold(s[i + m]) == Fold(w[m])
    decreases |w|
  {
    if |w| == 0 {
      assert Lits(w) + rest == rest;
    } else {
      var lab := Lits(w) + rest;
      assert lab[0] == Lit(w[0]);
      assert lab[1..] == Lits(w[1..]) + rest;
      LitsSpelled(w[1..], rest, s, i + 1, j);
      forall m | 0 <= m < |w|
        ensures Fold(s[i + m]) == Fold(w[m])
      {
        if m > 0 {
          assert Fold(s[i + 1 + (m - 1)]) == Fold(w[1..][m - 1]);
        }
      }
    }
  }

  /** A text that opens with a literal label, in any letter case, followed by
      a number captures exactly the maximal run of `[\d,.]` after it. */
  lemma LabelAtStartCaptured(w: string, s: string)
    requires |w| < |s|
    requires forall m :: 0 <= m < |w| ==> Fold(s[m]) == Fold(w[m])
    requires IsNumChar(s[|w|])
    ensures FirstMatch(Lits(w), s) == Some(s[|w|..NumberEnd(s, |w|)])
  {
    var lab := Lits(w);
    var f := NumberEnd(s, |w|);
    forall m | 0 <= m < |w|
      ensures Fold(s[0 + m]) == Fold(w[m])
    {
    }
    LitsMatch(w, s, 0);
    assert MatchAt(lab, s, 0, |w|, f);
    assert IsFirstMatch(lab, s, Some(s[|w|..f]));
    NoRunAnchored(lab);
    FirstMatchCharacterised(lab, s, Some(s[|w|..f]));
  }
}

=== FILE: prompt.dfy ===
/** Prompt assembly of the `/upload` handler (app.js:222-237): one fixed
    template line per present field, in field order, joined by newlines and
    wrapped in a fixed preamble and closing. */
module Prompt {
  import opened Wrappers
  import opened Text
  import opened Metrics

  /** JavaScript truthiness of a field: `undefined` and the empty string are
      falsy, so `field && line` followed by `filter(Boolean)` drops both. */
  predicate Present(v: Option<string>): (b: bool)
    ensures !b <==> v == None || v == Some("")
  {
    v.Some? && v.value != ""
  }

  /** The fixed text in front of each field's value: every line reads
      "- The <name> is <value>". */
  function Template(f: Field): (t: string)
    ensures |t| > 10 && t[..6] == "- The " && t[|t| - 4..] == " is "
  {
    match f
    case Revenue => "- The Revenue from Operations is "
    case NetProfitBeforeTax => "- The Net Profit before Tax is "
    case NetProfitAfterTax => "- The Net Profit after Tax is "
    case TotalComprehensiveIncome => "- The Total Comprehensive Income is "
    case EquityShareCapital => "- The Paid-up Equity Share Capital is "
    case NetWorth => "- The Net Worth of the company is "
    case OutstandingDebt => "- The Outstanding Debt is "
    case Eps => "- The Earnings Per Share is "
  }

  /** The line for field `f` with value `v`. */
  function Line(f: Field, v: string): string
  {
    Template(f) + v
  }

  /** The template literal around the joined lines: a newline and eight
      spaces of indentation open each of its lines, four close it. */
  const Preamble: string :=
    "\n        You are a Financial Analyst and Investor Relations Officer Based on this data :\n        "
  const Closing: string :=
    "\n        Please provide me a concise summary for stakeholders and your suggestion also whether the investor should invest in this or not. \n    "

  /** Field `i` of `fs` comes before field `j` in `FieldOrder` when `i < j`. */
  ghost predicate InFieldOrder(fs: seq<Field>)
  {
    forall i, j :: 0 <= i < j < |fs| ==> Index(fs[i]) < Index(fs[j])
  }

  /** `xs` is `ys` with some elements left out, the rest in their order. */
  ghost predicate IsSubsequence<T>(xs: seq<T>, ys: seq<T>)
    decreases |ys|
  {
    if xs == [] then true
    else if ys == [] then false
    else (xs[0] == ys[0] && IsSubsequence(xs[1..], ys[1..])) || IsSubsequence(xs, ys[1..])
  }

  /** The fields of `fs` present in `rec`, keeping the order of `fs`
      (`PresentAmongIsSubsequence`). */
  function PresentAmong(rec: FinancialRecord, fs: seq<Field>): (ps: seq<Field>)
    ensures forall f :: f in ps <==> f in fs && Present(rec.Get(f))
    decreases |fs|
  {
    if fs == [] then []
    else
      var rest := PresentAmong(rec, fs[1..]);
      if Present(rec.Get(fs[0])) then [fs[0]] + rest else rest
  }

  /** The present fields are `fs` with the absent ones left out. */
  lemma {:induction false} PresentAmongIsSubsequence(rec: FinancialRecord, fs: seq<Field>)
    ensures IsSubsequence(PresentAmong(rec, fs), fs)
    decreases |fs|
  {
    if fs != [] {
      var rest := PresentAmong(rec, fs[1..]);
      PresentAmongIsSubsequence(rec, fs[1..]);
      if Present(rec.Get(fs[0])) {
        assert ([fs[0]] + rest)[1..] == rest;
      }
    }
  }

  /** Each truthy field is kept as often as it occurs in the list and a falsy
      one never; with `PresentAmongIsSubsequence` this pins the result down
      to the list with its falsy entries left out, repeats included. */
  lemma {:induction false} PresentAmongCounts(rec: FinancialRecord, fs: seq<Field>)
    ensures forall f ::
      multiset(PresentAmong(rec, fs))[f] == if Present(rec.Get(f)) then multiset(fs)[f] else 0
    decreases |fs|
  {
    if fs != [] {
      PresentAmongCounts(rec, fs[1..]);
      assert fs == [fs[0]] + fs[1..];
      assert multiset(fs) == multiset{fs[0]} + multiset(fs[1..]);
      var rest := PresentAmong(rec, fs[1..]);
      if Present(rec.Get(fs[0])) {
        assert multiset([fs[0]] + rest) == multiset{fs[0]} + multiset(rest);
      }
    }
  }

  /** The present fields of a list in field order are in field order. */
  lemma {:induction false} PresentAmongInOrder(rec: FinancialRecord, fs: seq<Field>)
    requires InFieldOrder(fs)
    ensures InFieldOrder(PresentAmong(rec, fs))
    decreases |fs|
  {
    if fs != [] {
      var rest := PresentAmong(rec, fs[1..]);
      assert InFieldOrder(fs[1..]);
      PresentAmongInOrder(rec, fs[1..]);
      if Present(rec.Get(fs[0])) {
        forall g | g in rest
          ensures Index(fs[0]) < Index(g)
        {
          var j :| 0 <= j < |fs[1..]| && fs[1..][j] == g;
          assert fs[j + 1] == g;
        }
        InOrderCons(fs[0], rest);
      }
    }
  }

  lemma InOrderCons(f: Field, rest: seq<Field>)
    requires InFieldOrder(rest)
    requires forall g :: g in rest ==> Index(f) < Index(g)
    ensures InFieldOrder([f] + rest)
  {
    var ps := [f] + rest;
    forall i, j | 0 <= i < j < |ps|
      ensures Index(ps[i]) < Index(ps[j])
    {
      assert ps[j] == rest[j - 1];
      if i > 0 {
        assert ps[i] == rest[i - 1];
      }
    }
  }

  lemma FieldOrderInOrder()
    ensures InFieldOrder(FieldOrder)
  {
    forall i | 0 <= i < |FieldOrder|
      ensures Index(FieldOrder[i]) == i
    {
      // Naming the eight positions keeps this cheap; without it the proof nears the resource limit.
      assert i == 0 || i == 1 || i == 2 || i == 3 || i == 4 || i == 5 || i == 6 || i == 7;
    }
  }

  /** The present fields of a record: each present field once, in field
      order, and no absent one. */
  function PresentFields(rec: FinancialRecord): (ps: seq<Field>)
    ensures forall f :: f in ps <==> Present(rec.Get(f))
    ensures InFieldOrder(ps)
  {
    FieldOrderInOrder();
    PresentAmongInOrder(rec, FieldOrder);
    forall f ensures f in FieldOrder {
      assert FieldOrder[Index(f)] == f;
    }
    PresentAmong(rec, FieldOrder)
  }

  /** `promptParts` restricted to the fields `fs`: each candidate line is kept
      when its field is truthy. */
  function PartsAmong(rec: FinancialRecord, fs: seq<Field>): seq<string>
    decreases |fs|
  {
    if fs == [] then []
    else
      var v := rec.Get(fs[0]);
      (if Present(v) then [Line(fs[0], v.value)] else []) + PartsAmong(rec, fs[1..])
  }

  /** `promptParts`: the filtered array of template lines. */
  function Parts(rec: FinancialRecord): (parts: seq<string>)
    ensures |parts| == |PresentFields(rec)|
  {
    PartsAmongMatchFields(rec, FieldOrder);
    PartsAmong(rec, FieldOrder)
  }

  /** The assembled prompt. */
  function BuildPrompt(rec: FinancialRecord): (prompt: string)
    ensures |prompt| >= |Preamble| + |Closing|
    ensures prompt[..|Preamble|] == Preamble
    ensures prompt[|prompt| - |Closing|..] == Closing
    ensures prompt[|Preamble|..|prompt| - |Closing|] == Join(Parts(rec), "\n")
  {
    Framed(Preamble, Join(Parts(rec), "\n"), Closing);
    Preamble + Join(Parts(rec), "\n") + Closing
  }

  /** The three parts of `a + b + c` can be cut back out of it. */
  lemma Framed(a: string, b: string, c: string)
    ensures (a + b + c)[..|a|] == a
    ensures (a + b + c)[|a + b + c| - |c|..] == c
    ensures (a + b + c)[|a|..|a + b + c| - |c|] == b
  {
  }

  /** Line `i` of `parts` is the line of field `i` of `ps`, and that field
      is present. */
  predicate LinesMatch(rec: FinancialRecord, ps: seq<Field>, parts: seq<string>)
  {
    |parts| == |ps|
    && forall i :: 0 <= i < |parts| ==>
      Present(rec.Get(ps[i])) && parts[i] == Line(ps[i], rec.Get(ps[i]).value)
  }

  lemma LinesMatchCons(rec: FinancialRecord, f: Field, ps: seq<Field>, parts: seq<string>)
    requires LinesMatch(rec, ps, parts) && Present(rec.Get(f))
    ensures LinesMatch(rec, [f] + ps, [Line(f, rec.Get(f).value)] + parts)
  {
    var ps', parts' := [f] + ps, [Line(f, rec.Get(f).value)] + parts;
    forall i | 0 < i < |parts'|
      ensures ps'[i] == ps[i - 1] && parts'[i] == parts[i - 1]
    {
    }
  }

  /** Each line of `PartsAmong` is the line of the corresponding present
      field. */
  lemma {:induction false} PartsAmongMatchFields(rec: FinancialRecord, fs: seq<Field>)
    ensures LinesMatch(rec, PresentAmong(rec, fs), PartsAmong(rec, fs))
    decreases |fs|
  {
    if fs != [] {
      PartsAmongMatchFields(rec, fs[1..]);
      var parts := PartsAmong(rec, fs[1..]);
      var ps := PresentAmong(rec, fs[1..]);
      var v := rec.Get(fs[0]);
      if Present(v) {
        assert PartsAmong(rec, fs) == [Line(fs[0], v.value)] + parts;
        assert PresentAmong(rec, fs) == [fs[0]] + ps;
        LinesMatchCons(rec, fs[0], ps, parts);
      } else {
        assert PartsAmong(rec, fs) == [] + parts;
        assert PresentAmong(rec, fs) == ps;
      }
    }
  }

  /** The prompt lines: exactly one line per present field, in field order,
      each the field's template followed by its value. */
  lemma PartsMatchFields(rec: FinancialRecord)
    ensures |Parts(rec)| == |PresentFields(rec)|
    ensures forall i :: 0 <= i < |Parts(rec)| ==>
      var f := PresentFields(rec)[i];
      Present(rec.Get(f)) && Parts(rec)[i] == Line(f, rec.Get(f).value)
  {
    PartsAmongMatchFields(rec, FieldOrder);
    var ps, parts := PresentFields(rec), Parts(rec);
    assert LinesMatch(rec, ps, parts);
  }

  /** No template spells a newline. */
  lemma TemplateHasNoNewline(f: Field)
    ensures forall m :: 0 <= m < |Template(f)| ==> Template(f)[m] != '\n'
  {
    match f
    case Revenue => RevenueNoNewline();
    case NetProfitBeforeTax => NetProfitBeforeTaxNoNewline();
    case NetProfitAfterTax => NetProfitAfterTaxNoNewline();
    case TotalComprehensiveIncome => TotalComprehensiveIncomeNoNewline();
    case EquityShareCapital => EquityShareCapitalNoNewline();
    case NetWorth => NetWorthNoNewline();
    case OutstandingDebt => OutstandingDebtNoNewline();
    case Eps => EpsNoNewline();
  }

  lemma RevenueNoNewline()
    ensures forall m :: 0 <= m < |Template(Revenue)| ==> Template(Revenue)[m] != '\n'
  {
    assert Template(Revenue) == "- The Revenue from Operations is ";
  }

  lemma NetProfitBeforeTaxNoNewline()
    ensures forall m :: 0 <= m < |Template(NetProfitBeforeTax)| ==> Template(NetProfitBeforeTax)[m] != '\n'
  {
    assert Template(NetProfitBeforeTax) == "- The Net Profit before Tax is ";
  }

  lemma NetProfitAfterTaxNoNewline()
    ensures forall m :: 0 <= m < |Template(NetProfitAfterTax)| ==> Template(NetProfitAfterTax)[m] != '\n'
  {
    assert Template(NetProfitAfterTax) == "- The Net Profit after Tax is ";
  }

  lemma TotalComprehensiveIncomeNoNewline()
    ensures forall m :: 0 <= m < |Template(TotalComprehensiveIncome)| ==> Template(TotalComprehensiveIncome)[m] != '\n'
  {
    assert Template(TotalComprehensiveIncome) == "- The Total Comprehensive Income is ";
  }

  lemma EquityShareCapitalNoNewline()
    ensures forall m :: 0 <= m < |Template(EquityShareCapital)| ==> Template(EquityShareCapital)[m] != '\n'
  {
    assert Template(EquityShareCapital) == "- The Paid-up Equity Share Capital is ";
  }

  lemma NetWorthNoNewline()
    ensures forall m :: 0 <= m < |Template(NetWorth)| ==> Template(NetWorth)[m] != '\n'
  {
    assert Template(NetWorth) == "- The Net Worth of the company is ";
  }

  lemma OutstandingDebtNoNewline()
    ensures forall m :: 0 <= m < |Template(OutstandingDebt)| ==> Template(OutstandingDebt)[m] != '\n'
  {
    assert Template(OutstandingDebt) == "- The Outstanding Debt is ";
  }

  lemma EpsNoNewline()
    ensures forall m :: 0 <= m < |Template(Eps)| ==> Template(Eps)[m] != '\n'
  {
    assert Template(Eps) == "- The Earnings Per Share is ";
  }

  /** Splitting the body on newlines gives back the lines when at least one
      field is present and no value spells a newline. */
  lemma BodySplitsIntoParts(rec: FinancialRecord)
    requires exists f :: Present(rec.Get(f))
    requires forall f :: Present(rec.Get(f)) ==> '\n' !in rec.Get(f).value
    ensures SplitOn(Join(Parts(rec), "\n"), '\n') == Parts(rec)
  {
    var parts := Parts(rec);
    var f0 :| Present(rec.Get(f0));
    PartsMatchFields(rec);
    assert f0 in PresentFields(rec);
    forall k, m | 0 <= k < |parts| && 0 <= m < |parts[k]|
      ensures parts[k][m] != '\n'
    {
      var f := PresentFields(rec)[k];
      TemplateHasNoNewline(f);
      var v := rec.Get(f).value;
      if m < |Template(f)| {
        assert parts[k][m] == Template(f)[m];
      } else {
        assert parts[k][m] == v[m - |Template(f)|];
      }
    }
    assert "\n" == ['\n'];
    SplitJoin(parts, '\n');
  }

  /** The first two elements of a sequence, where they exist, are members. */
  lemma LeadingMembers<T>(s: seq<T>)
    ensures |s| > 0 ==> s[0] in s
    ensures |s| > 1 ==> s[1] in s
  {
  }

  /** With every field absent the prompt is just the preamble and the closing. */
  lemma NothingPresentPrompt(rec: FinancialRecord)
    requires forall f :: !Present(rec.Get(f))
    ensures Parts(rec) == []
    ensures BuildPrompt(rec) == Preamble + Closing
  {
    PartsMatchFields(rec);
    LeadingMembers(PresentFields(rec));
  }

  /** For an extracted record, a field has a prompt line exactly when it was
      captured, and the body splits back into the lines. */
  lemma ExtractedPrompt(text: string)
    ensures forall f :: f in PresentFields(Extract(text)) <==> Extract(text).Get(f).Some?
    ensures (exists f :: Extract(text).Get(f).Some?) ==>
      SplitOn(Join(Parts(Extract(text)), "\n"), '\n') == Parts(Extract(text))
  {
    NumberRecordPrompt(Extract(text));
  }

  /** The same for any record whose values are number tokens. */
  lemma NumberRecordPrompt(rec: FinancialRecord)
    requires forall f :: rec.Get(f).Some? ==> IsNumberToken(rec.Get(f).value)
    ensures forall f :: f in PresentFields(rec) <==> rec.Get(f).Some?
    ensures (exists f :: rec.Get(f).Some?) ==>
      SplitOn(Join(Parts(rec), "\n"), '\n') == Parts(rec)
  {
    NumberValuesHaveNoNewline(rec);
    if exists f :: rec.Get(f).Some? {
      var f :| rec.Get(f).Some?;
      assert Present(rec.Get(f));
      BodySplitsIntoParts(rec);
    }
  }

  /** A record whose values are number tokens: a value is present exactly
      when it was captured, and no value spells a newline. */
  lemma NumberValuesHaveNoNewline(rec: FinancialRecord)
    requires forall f :: rec.Get(f).Some? ==> IsNumberToken(rec.Get(f).value)
    ensures forall f :: Present(rec.Get(f)) <==> rec.Get(f).Some?
    ensures forall f :: Present(rec.Get(f)) ==> '\n' !in rec.Get(f).value
  {
    forall f | rec.Get(f).Some?
      ensures Present(rec.Get(f)) && '\n' !in rec.Get(f).value
    {
      assert IsNumberToken(rec.Get(f).value);
    }
  }

  /** The worked example: a record with only revenue present yields a single
      prompt line, the revenue line. */
  lemma OnlyRevenuePrompt(v: string)
    requires v != ""
    ensures Parts(FinancialRecord(Some(v), None, None, None, None, None, None, None))
      == ["- The Revenue from Operations is " + v]
  {
    var rec := FinancialRecord(Some(v), None, None, None, None, None, None, None);
    PartsMatchFields(rec);
    assert PresentFields(rec) == [Revenue] by {
      var ps := PresentFields(rec);
      assert Revenue in ps;
      LeadingMembers(ps);
    }
  }

  /** The worked example end to end: the report text
      "Revenue From Operations\n1,234.50" gives a prompt body of the one
      revenue line. */
  lemma ReportPrompt()
    ensures Parts(Extract(RevenueReport)) == ["- The Revenue from Operations is " + "1,234.50"]
  {
    RevenueExample();
    OnlyRevenuePrompt("1,234.50");
  }
}

=== FILE: slides.dfy ===
/** The slide text of `generatePPTFromSummary` (app.js:141-166): the summary
    is split into sentences at `/\.\s+/`, every sentence into words at
    `/\s+/`, and each sentence becomes one slide of text runs that alternate
    a word and a white space run; a closing slide follows. Rendering and the
    file written are not modelled, and the random draws are parameters. */
module Slides {
  import opened Wrappers
  import opened Text

  /** The two patterns the summary is split on. */
  datatype Separator = SentenceBreak | Whitespace

  /** Length of the run of `\s` characters that starts at `i`. */
  function SpaceRun(s: string, i: nat): (n: nat)
    requires i <= |s|
    ensures i + n <= |s|
    ensures n > 0 <==> i < |s| && IsSpace(s[i])
    decreases |s| - i
  {
    if i < |s| && IsSpace(s[i]) then 1 + SpaceRun(s, i + 1) else 0
  }

  /** The run is maximal: white space throughout, and not followed by any. */
  lemma {:induction false} SpaceRunIsMaximal(s: string, i: nat)
    requires i <= |s|
    ensures var n := SpaceRun(s, i);
      && (forall j :: i <= j < i + n ==> IsSpace(s[j]))
      && (i + n == |s| || !IsSpace(s[i + n]))
    decreases |s| - i
  {
    if i < |s| && IsSpace(s[i]) {
      SpaceRunIsMaximal(s, i + 1);
    }
  }

  /** Length of the match of `sep` that starts at `i`, 0 when there is none.
      `/\s+/` matches at a white space character, `/\.\s+/` at a full stop
      followed by one; both are greedy, so the match takes the whole run of
      white space. */
  function SepLen(sep: Separator, s: string, i: nat): (n: nat)
    requires i <= |s|
    ensures sep.Whitespace? ==> (n > 0 <==> i < |s| && IsSpace(s[i]))
    ensures sep.SentenceBreak? ==>
      (n > 0 <==> i + 1 < |s| && s[i] == '.' && IsSpace(s[i + 1]))
    ensures i + n <= |s|
  {
    match sep
    case Whitespace => SpaceRun(s, i)
    case SentenceBreak =>
      if i < |s| && s[i] == '.' && SpaceRun(s, i + 1) > 0 then 1 + SpaceRun(s, i + 1) else 0
  }

  /** A match is the whole white space run that starts at `i` (after the
      full stop, for a sentence break): every character it covers is white
      space and the character after it is not. */
  lemma SepLenIsMaximalRun(sep: Separator, s: string, i: nat)
    requires i <= |s| && SepLen(sep, s, i) > 0
    ensures var n := SepLen(sep, s, i);
      && (forall j :: i + (if sep.SentenceBreak? then 1 else 0) <= j < i + n ==> IsSpace(s[j]))
      && (i + n == |s| || !IsSpace(s[i + n]))
  {
    if sep.Whitespace? {
      SpaceRunIsMaximal(s, i);
    } else {
      SpaceRunIsMaximal(s, i + 1);
    }
  }

  /** No match runs past the end of the text. */
  predicate Fits(m: seq<nat>)
  {
    forall j :: 0 <= j < |m| ==> j + m[j] <= |m|
  }

  /** The length of the match of `sep` tried at every position of `s`. */
  function MatchTable(sep: Separator, s: string): (m: seq<nat>)
    ensures |m| == |s| && Fits(m)
    ensures forall j :: 0 <= j < |s| ==> m[j] == SepLen(sep, s, j)
  {
    seq(|s|, j requires 0 <= j < |s| => SepLen(sep, s, j))
  }

  /** The loop of `RegExp.prototype[Symbol.split]` in ECMAScript, with the
      match tried at position `q` read from `m[q]`: `p` is where the current
      piece began and `q` the next position a match is tried at. A match is
      never empty, so the algorithm's step over an empty match at `p` never
      applies, and for the empty string, where neither pattern matches, the
      loop yields `[""]` just like the algorithm's special case. */
  function SplitFrom(s: string, m: seq<nat>, p: nat, q: nat): (pieces: seq<string>)
    requires |m| == |s| && Fits(m) && p <= q <= |s|
    ensures |pieces| >= 1
    decreases |s| - q
  {
    if q == |s| then [s[p..]]
    else if m[q] == 0 then SplitFrom(s, m, p, q + 1)
    else [s[p..q]] + SplitFrom(s, m, q + m[q], q + m[q])
  }

  /** `s.split(sep)`: the pieces `s` falls into at the matches of `sep`,
      in the declarative sense of `Pieces`. */
  function Split(sep: Separator, s: string): (pieces: seq<string>)
    ensures |pieces| >= 1
    ensures pieces == Pieces(sep, s)
  {
    var m := MatchTable(sep, s);
    SplitFromIsCuts(s, m, 0, 0);
    assert s[0..] == s && m[0..] == m;
    SplitFrom(s, m, 0, 0)
  }

  /** `summary.split(/\.\s+/)`: no sentence holds a full stop followed by
      white space. */
  function Sentences(summary: string): (sentences: seq<string>)
    ensures |sentences| >= 1
    ensures forall k :: 0 <= k < |sentences| ==> NoSep(SentenceBreak, sentences[k])
  {
    PiecesHaveNoSep(SentenceBreak, summary);
    Split(SentenceBreak, summary)
  }

  /** `sentence.split(/\s+/)`: no word holds white space. */
  function Words(sentence: string): (words: seq<string>)
    ensures |words| >= 1
    ensures forall k :: 0 <= k < |words| ==> NoSpace(words[k])
  {
    WordsHaveNoSpace(sentence);
    Split(Whitespace, sentence)
  }

  // ---------------------------------------------------------------------
  // A declarative reading of split: cut at the first match, then split
  // what follows it.
  // ---------------------------------------------------------------------

  ghost predicate FirstAt(m: seq<nat>, i: nat)
  {
    i < |m| && m[i] > 0 && forall j :: 0 <= j < i ==> m[j] == 0
  }

  /** Where the first match starts, if there is one. */
  ghost function FirstOf(m: seq<nat>): (r: Option<nat>)
    ensures r.Some? ==> FirstAt(m, r.value)
    ensures r.None? ==> forall j :: 0 <= j < |m| ==> m[j] == 0
  {
    if exists i: nat :: FirstAt(m, i) then
      var i: nat :| FirstAt(m, i);
      Some(i)
    else
      NoFirst(m);
      None
  }

  lemma NoFirst(m: seq<nat>)
    requires forall i: nat :: !FirstAt(m, i)
    ensures forall j :: 0 <= j < |m| ==> m[j] == 0
  {
    forall j | 0 <= j < |m|
      ensures m[j] == 0
    {
      NoFirstBelow(m, j);
    }
  }

  lemma {:induction false} NoFirstBelow(m: seq<nat>, j: nat)
    requires forall i: nat :: !FirstAt(m, i)
    requires j < |m|
    ensures m[j] == 0
    decreases j
  {
    forall k | 0 <= k < j
      ensures m[k] == 0
    {
      NoFirstBelow(m, k);
    }
    assert !FirstAt(m, j);
  }

  lemma FitsSuffix(m: seq<nat>, k: nat)
    requires Fits(m) && k <= |m|
    ensures Fits(m[k..])
  {
    forall j | 0 <= j < |m| - k
      ensures j + m[k..][j] <= |m| - k
    {
      assert m[k..][j] == m[k + j];
    }
  }

  /** The pieces of `s` under the match table `m`: the text before the
      first match, then the pieces of what follows that match. */
  ghost function Cuts(s: string, m: seq<nat>): (pieces: seq<string>)
    requires |m| == |s| && Fits(m)
    ensures |pieces| >= 1
    decreases |s|
  {
    match FirstOf(m)
    case None => [s]
    case Some(i) =>
      FitsSuffix(m, i + m[i]);
      [s[..i]] + Cuts(s[i + m[i]..], m[i + m[i]..])
  }

  /** The pieces `s` falls into at the matches of `sep`. */
  ghost function Pieces(sep: Separator, s: string): seq<string>
  {
    Cuts(s, MatchTable(sep, s))
  }

  lemma FirstAtUnique(m: seq<nat>, i: nat, j: nat)
    requires FirstAt(m, i) && FirstAt(m, j)
    ensures i == j
  {
  }

  lemma CutsAt(s: string, m: seq<nat>, i: nat)
    requires |m| == |s| && Fits(m) && FirstAt(m, i)
    ensures Fits(m[i + m[i]..])
    ensures Cuts(s, m) == [s[..i]] + Cuts(s[i + m[i]..], m[i + m[i]..])
  {
    FitsSuffix(m, i + m[i]);
    FirstOfIs(m, i);
    CutsUnfold(s, m, i);
  }

  lemma FirstOfIs(m: seq<nat>, i: nat)
    requires FirstAt(m, i)
    ensures FirstOf(m) == Some(i)
  {
    var r := FirstOf(m);
    FirstAtUnique(m, i, r.value);
  }

  lemma CutsUnfold(s: string, m: seq<nat>, i: nat)
    requires |m| == |s| && Fits(m) && FirstOf(m) == Some(i)
    requires Fits(m[i + m[i]..])
    ensures Cuts(s, m) == [s[..i]] + Cuts(s[i + m[i]..], m[i + m[i]..])
  {
  }

  lemma CutsNone(s: string, m: seq<nat>)
    requires |m| == |s| && Fits(m)
    requires forall j :: 0 <= j < |m| ==> m[j] == 0
    ensures Cuts(s, m) == [s]
  {
    assert FirstOf(m).None?;
  }

  lemma SliceOfSuffix<T>(s: seq<T>, p: nat, q: nat, r: nat)
    requires p <= q <= r <= |s|
    ensures s[p..][..q - p] == s[p..q]
    ensures s[p..][r - p..] == s[r..]
  {
  }

  /** The loop, started with no match between `p` and `q`, yields the
      pieces of the text from `p`. */
  lemma {:induction false} SplitFromIsCuts(s: string, m: seq<nat>, p: nat, q: nat)
    requires |m| == |s| && Fits(m) && p <= q <= |s|
    requires forall j :: p <= j < q ==> m[j] == 0
    ensures Fits(m[p..])
    ensures SplitFrom(s, m, p, q) == Cuts(s[p..], m[p..])
    decreases |s| - q
  {
    FitsSuffix(m, p);
    if q == |s| {
      CutsNone(s[p..], m[p..]);
    } else if m[q] == 0 {
      SplitFromIsCuts(s, m, p, q + 1);
    } else {
      var e := m[q];
      assert SplitFrom(s, m, p, q) == [s[p..q]] + SplitFrom(s, m, q + e, q + e);
      SplitFromIsCuts(s, m, q + e, q + e);
      CutsFrom(s, m, p, q);
    }
  }

  /** The first match of the text from `p` is the one at `q`. */
  lemma CutsFrom(s: string, m: seq<nat>, p: nat, q: nat)
    requires |m| == |s| && Fits(m) && p <= q < |s| && m[q] > 0
    requires forall j :: p <= j < q ==> m[j] == 0
    ensures Fits(m[p..]) && Fits(m[q + m[q]..])
    ensures Cuts(s[p..], m[p..]) == [s[p..q]] + Cuts(s[q + m[q]..], m[q + m[q]..])
  {
    FitsSuffix(m, p);
    var t, n, i := s[p..], m[p..], q - p;
    FirstAtSuffix(m, p, q);
    SliceOfSuffix(s, p, q, q + m[q]);
    SliceOfSuffix(m, p, q, q + m[q]);
    CutsAtOnto(t, n, i, s[p..q], s[q + m[q]..], m[q + m[q]..]);
  }

  /** `CutsAt` with the pieces around the first match named by the caller. */
  lemma CutsAtOnto(s: string, m: seq<nat>, i: nat, head: string, rs: string, rm: seq<nat>)
    requires |m| == |s| && Fits(m) && FirstAt(m, i)
    requires head == s[..i] && rs == s[i + m[i]..] && rm == m[i + m[i]..]
    ensures |rm| == |rs| && Fits(rm)
    ensures Cuts(s, m) == [head] + Cuts(rs, rm)
  {
    CutsAt(s, m, i);
  }

  lemma FirstAtSuffix(m: seq<nat>, p: nat, q: nat)
    requires p <= q < |m| && m[q] > 0
    requires forall j :: p <= j < q ==> m[j] == 0
    ensures FirstAt(m[p..], q - p) && m[p..][q - p] == m[q]
  {
    forall j | 0 <= j < q - p
      ensures m[p..][j] == 0
    {
      assert m[p..][j] == m[p + j];
    }
  }

  lemma {:induction false} SpaceRunShift(s: string, m: nat, j: nat)
    requires m + j <= |s|
    ensures SpaceRun(s[m..], j) == SpaceRun(s, m + j)
    decreases |s| - m - j
  {
    if m + j < |s| && IsSpace(s[m + j]) {
      SpaceRunShift(s, m, j + 1);
    }
  }

  /** A match depends only on the text from where it starts. */
  lemma SepShift(sep: Separator, s: string, m: nat, j: nat)
    requires m + j <= |s|
    ensures SepLen(sep, s[m..], j) == SepLen(sep, s, m + j)
  {
    SpaceRunShift(s, m, j);
    if m + j < |s| {
      SpaceRunShift(s, m, j + 1);
    }
  }

  /** The table of a suffix is the suffix of the table. */
  lemma TableShift(sep: Separator, s: string, k: nat)
    requires k <= |s|
    ensures MatchTable(sep, s)[k..] == MatchTable(sep, s[k..])
  {
    forall j | 0 <= j < |s| - k
      ensures MatchTable(sep, s)[k..][j] == MatchTable(sep, s[k..])[j]
    {
      SepShift(sep, s, k, j);
    }
  }

  /** The split of ECMAScript agrees with the declarative reading. */
  ghost predicate FirstSep(sep: Separator, s: string, i: nat)
  {
    && i < |s|
    && SepLen(sep, s, i) > 0
    && forall j :: 0 <= j < i ==> SepLen(sep, s, j) == 0
  }

  /** Where the first match of `sep` in `s` starts, if there is one. */
  ghost function FirstSepOf(sep: Separator, s: string): (r: Option<nat>)
    ensures r.Some? ==> FirstSep(sep, s, r.value)
    ensures r.None? ==> forall j :: 0 <= j < |s| ==> SepLen(sep, s, j) == 0
  {
    FirstOf(MatchTable(sep, s))
  }

  /** With the first match at `i`, the first piece ends at `i` and the rest
      are the pieces of what follows the match. */
  lemma PiecesAt(sep: Separator, s: string, i: nat)
    requires FirstSep(sep, s, i)
    ensures Pieces(sep, s) == [s[..i]] + Pieces(sep, s[i + SepLen(sep, s, i)..])
  {
    var m := MatchTable(sep, s);
    assert FirstAt(m, i);
    CutsAt(s, m, i);
    TableShift(sep, s, i + m[i]);
  }

  /** Without a match the text is its only piece. */
  lemma PiecesNone(sep: Separator, s: string)
    requires forall j :: 0 <= j < |s| ==> SepLen(sep, s, j) == 0
    ensures Pieces(sep, s) == [s]
  {
    CutsNone(s, MatchTable(sep, s));
  }

  /** The same shift read from the text's side. */
  lemma SepShiftOut(sep: Separator, s: string, m: nat)
    requires m <= |s|
    ensures forall j :: m <= j <= |s| ==> SepLen(sep, s, j) == SepLen(sep, s[m..], j - m)
  {
    forall j | m <= j <= |s|
      ensures SepLen(sep, s, j) == SepLen(sep, s[m..], j - m)
    {
      SepShift(sep, s, m, j - m);
    }
  }

  // ---------------------------------------------------------------------
  // Words.
  // ---------------------------------------------------------------------

  /** `s` with every maximal run of white space replaced by one space. */
  function Collapse(s: string): (c: string)
    ensures forall k :: 0 <= k < |c| && IsSpace(c[k]) ==> c[k] == ' '
    decreases |s|
  {
    if |s| == 0 then ""
    else if IsSpace(s[0]) then " " + Collapse(s[SpaceRun(s, 0)..])
    else [s[0]] + Collapse(s[1..])
  }

  /** A first match in the tail of a text that starts with no match is the
      first match of the text, one position on. */
  lemma FirstSepCons(sep: Separator, s: string, i: nat)
    requires |s| > 0 && SepLen(sep, s, 0) == 0
    requires FirstSep(sep, s[1..], i)
    ensures FirstSep(sep, s, i + 1)
    ensures SepLen(sep, s, i + 1) == SepLen(sep, s[1..], i)
  {
    SepShiftOut(sep, s, 1);
  }

  /** A text that starts with no match and has none in its tail has none. */
  lemma NoSepCons(sep: Separator, s: string)
    requires |s| > 0 && SepLen(sep, s, 0) == 0
    requires forall j :: 0 <= j < |s| - 1 ==> SepLen(sep, s[1..], j) == 0
    ensures forall j :: 0 <= j < |s| ==> SepLen(sep, s, j) == 0
  {
    SepShiftOut(sep, s, 1);
  }

  /** A text that starts with no match shares all but its first character
      with the pieces of its tail. */
  lemma PiecesCons(sep: Separator, s: string)
    requires |s| > 0 && SepLen(sep, s, 0) == 0
    ensures var rest := Pieces(sep, s[1..]);
      Pieces(sep, s) == [[s[0]] + rest[0]] + rest[1..]
  {
    match FirstSepOf(sep, s[1..])
    case Some(i) => PiecesConsAt(sep, s, i);
    case None => PiecesConsNone(sep, s);
  }

  lemma PiecesConsAt(sep: Separator, s: string, i: nat)
    requires |s| > 0 && SepLen(sep, s, 0) == 0
    requires FirstSep(sep, s[1..], i)
    ensures var rest := Pieces(sep, s[1..]);
      Pieces(sep, s) == [[s[0]] + rest[0]] + rest[1..]
  {
    var t := s[1..];
    FirstSepCons(sep, s, i);
    var e := SepLen(sep, t, i);
    PiecesAt(sep, s, i + 1);
    PiecesAt(sep, t, i);
    SliceOfTail(s, i, i + e);
  }

  lemma SliceOfTail<T>(s: seq<T>, i: nat, r: nat)
    requires 0 < |s| && i <= r < |s|
    ensures s[..i + 1] == [s[0]] + s[1..][..i]
    ensures s[r + 1..] == s[1..][r..]
  {
  }

  lemma PiecesConsNone(sep: Separator, s: string)
    requires |s| > 0 && SepLen(sep, s, 0) == 0
    requires forall j :: 0 <= j < |s| - 1 ==> SepLen(sep, s[1..], j) == 0
    ensures var rest := Pieces(sep, s[1..]);
      Pieces(sep, s) == [[s[0]] + rest[0]] + rest[1..]
  {
    NoSepCons(sep, s);
    PiecesNone(sep, s);
    PiecesNone(sep, s[1..]);
    assert s == [s[0]] + s[1..];
  }

  lemma JoinConsHead(c: char, x: string, rest: seq<string>, sep: string)
    ensures Join([[c] + x] + rest, sep) == [c] + Join([x] + rest, sep)
  {
    if |rest| > 0 {
      assert ([[c] + x] + rest)[1..] == rest;
      assert ([x] + rest)[1..] == rest;
    }
  }

  /** A text that starts with white space has an empty first word. */
  lemma PiecesSpaceHead(s: string)
    requires |s| > 0 && IsSpace(s[0])
    ensures Pieces(Whitespace, s) == [""] + Pieces(Whitespace, s[SpaceRun(s, 0)..])
  {
    assert FirstSep(Whitespace, s, 0);
    PiecesAt(Whitespace, s, 0);
  }

  /** Joining the words with single spaces collapses every run of white
      space to one space. */
  lemma {:induction false} WordsCollapse(s: string)
    ensures Join(Pieces(Whitespace, s), " ") == Collapse(s)
    decreases |s|
  {
    if |s| == 0 {
      PiecesNone(Whitespace, s);
    } else if IsSpace(s[0]) {
      CollapseSpaceHead(s);
    } else {
      CollapseWordHead(s);
    }
  }

  lemma {:induction false} CollapseSpaceHead(s: string)
    requires |s| > 0 && IsSpace(s[0])
    ensures Join(Pieces(Whitespace, s), " ") == Collapse(s)
    decreases |s|, 0
  {
    var e := SpaceRun(s, 0);
    PiecesSpaceHead(s);
    JoinCons("", Pieces(Whitespace, s[e..]), " ");
    WordsCollapse(s[e..]);
  }

  lemma {:induction false} CollapseWordHead(s: string)
    requires |s| > 0 && !IsSpace(s[0])
    ensures Join(Pieces(Whitespace, s), " ") == Collapse(s)
    decreases |s|, 0
  {
    PiecesCons(Whitespace, s);
    var rest := Pieces(Whitespace, s[1..]);
    JoinConsHead(s[0], rest[0], rest[1..], " ");
    assert [rest[0]] + rest[1..] == rest;
    WordsCollapse(s[1..]);
  }

  /** A string without white space in it. */
  predicate NoSpace(w: string)
  {
    forall m :: 0 <= m < |w| ==> !IsSpace(w[m])
  }

  /** A word of a split contains no white space. */
  lemma {:induction false} WordsHaveNoSpace(s: string)
    ensures var ws := Pieces(Whitespace, s);
      forall k :: 0 <= k < |ws| ==> NoSpace(ws[k])
    decreases |s|
  {
    match FirstSepOf(Whitespace, s)
    case Some(i) =>
      var e := SepLen(Whitespace, s, i);
      PiecesAt(Whitespace, s, i);
      WordsHaveNoSpace(s[i + e..]);
      FirstWordHasNoSpace(s, i);
    case None =>
      PiecesNone(Whitespace, s);
      assert NoSpace(s) by {
        forall m | 0 <= m < |s|
          ensures !IsSpace(s[m])
        {
          assert SepLen(Whitespace, s, m) == 0;
        }
      }
  }

  lemma FirstWordHasNoSpace(s: string, i: nat)
    requires FirstSep(Whitespace, s, i)
    ensures NoSpace(s[..i])
  {
    forall m | 0 <= m < i
      ensures !IsSpace(s[..i][m])
    {
      assert SepLen(Whitespace, s, m) == 0;
    }
  }

  /** No match of `sep` starts anywhere in `w`. */
  predicate NoSep(sep: Separator, w: string)
  {
    forall j :: 0 <= j < |w| ==> SepLen(sep, w, j) == 0
  }

  /** No piece of a split holds a match of its separator. */
  lemma {:induction false} PiecesHaveNoSep(sep: Separator, s: string)
    ensures var ps := Pieces(sep, s);
      forall k :: 0 <= k < |ps| ==> NoSep(sep, ps[k])
    decreases |s|
  {
    match FirstSepOf(sep, s)
    case Some(i) =>
      var e := SepLen(sep, s, i);
      PiecesAt(sep, s, i);
      PiecesHaveNoSep(sep, s[i + e..]);
      forall j | 0 <= j < i
        ensures SepLen(sep, s[..i], j) == 0
      {
        SepPrefix(sep, s, i, j);
      }
    case None =>
      PiecesNone(sep, s);
  }

  /** A match inside a prefix is a match in the whole text. */
  lemma SepPrefix(sep: Separator, s: string, i: nat, j: nat)
    requires j < i <= |s|
    ensures SepLen(sep, s[..i], j) > 0 ==> SepLen(sep, s, j) > 0
  {
    assert s[..i][j] == s[j];
    if j + 1 < i {
      assert s[..i][j + 1] == s[j + 1];
    }
  }

  /** A word, one space and a text that starts with no white space split
      into that word and the pieces of the text. */
  lemma PiecesWordSpace(w: string, tail: string)
    requires NoSpace(w)
    requires |tail| > 0 && !IsSpace(tail[0])
    ensures Pieces(Whitespace, w + " " + tail) == [w] + Pieces(Whitespace, tail)
  {
    var s := w + " " + tail;
    assert s[|w|] == ' ' && s[|w| + 1] == tail[0];
    assert SpaceRun(s, |w| + 1) == 0;
    forall j | 0 <= j < |w|
      ensures SepLen(Whitespace, s, j) == 0
    {
      assert s[j] == w[j];
    }
    assert FirstSep(Whitespace, s, |w|);
    PiecesAt(Whitespace, s, |w|);
    assert s[..|w|] == w;
    assert s[|w| + 1..] == tail;
  }

  /** Splitting at white space undoes joining with single spaces when every
      word is non-empty and free of white space. */
  lemma {:induction false} WordsOfJoin(ws: seq<string>)
    requires |ws| >= 1
    requires forall k :: 0 <= k < |ws| ==> |ws[k]| > 0
    requires forall k :: 0 <= k < |ws| ==> NoSpace(ws[k])
    ensures Pieces(Whitespace, Join(ws, " ")) == ws
    decreases |ws|
  {
    if |ws| == 1 {
      PiecesNone(Whitespace, ws[0]);
    } else {
      var tail := Join(ws[1..], " ");
      WordsOfJoin(ws[1..]);
      JoinStartsWithFirst(ws[1..]);
      assert !IsSpace(ws[1][0]);
      PiecesWordSpace(ws[0], tail);
      assert [ws[0]] + ws[1..] == ws;
    }
  }

  lemma JoinStartsWithFirst(ws: seq<string>)
    requires |ws| >= 1 && |ws[0]| > 0
    ensures |Join(ws, " ")| > 0 && Join(ws, " ")[0] == ws[0][0]
  {
  }

  // ---------------------------------------------------------------------
  // Colours and text runs.
  // ---------------------------------------------------------------------

  const FontSize: nat := 20
  const HexDigits: string := "0123456789ABCDEF"
  const White: string := "FFFFFF"

  /** A colour as `randomColor` writes it: six upper-case hex digits. */
  predicate IsColour(c: string)
  {
    |c| == 6 && forall k :: 0 <= k < 6 ==> c[k] in HexDigits
  }

  /** `randomColor()`, with its six `Math.floor(Math.random() * 16)` draws
      given as `draws`. */
  function RandomColour(draws: seq<nat>): (c: string)
    requires |draws| == 6 && forall k :: 0 <= k < 6 ==> draws[k] < 16
    ensures IsColour(c)
    ensures forall k :: 0 <= k < 6 ==> c[k] == HexDigits[draws[k]]
  {
    seq(6, k requires 0 <= k < 6 => HexDigits[draws[k]])
  }

  function DigitValue(d: char): (v: nat)
    requires d in HexDigits
    ensures v < 16 && HexDigits[v] == d
  {
    if '0' <= d <= '9' then d as int - '0' as int else d as int - 'A' as int + 10
  }

  /** Every colour can come out of `randomColor`. */
  lemma EveryColourReachable(c: string)
    requires IsColour(c)
    ensures RandomColour(seq(6, k requires 0 <= k < 6 => DigitValue(c[k]))) == c
  {
  }

  lemma WhiteIsColour()
    ensures IsColour(White)
  {
    assert White[0] == HexDigits[15];
  }

  /** What the `Math.random() < 0.1` test decided for one word: keep it
      white, or recolour it with the draws of `randomColor`. */
  datatype Paint = KeepWhite | Recolour(draws: seq<nat>)

  predicate ValidPaint(p: Paint)
  {
    p.Recolour? ==> |p.draws| == 6 && forall k :: 0 <= k < 6 ==> p.draws[k] < 16
  }

  function PaintColour(p: Paint): (c: string)
    requires ValidPaint(p)
    ensures IsColour(c)
    ensures p.KeepWhite? ==> c == White
  {
    WhiteIsColour();
    match p
    case KeepWhite => White
    case Recolour(draws) => RandomColour(draws)
  }

  /** One `{ text, options: { color, fontSize } }` entry of `coloredText`. */
  datatype TextRun = TextRun(text: string, colour: string, fontSize: nat)

  const Space: TextRun := TextRun(" ", White, FontSize)

  /** The text a sequence of runs shows. */
  function Concat(runs: seq<TextRun>): string
  {
    if |runs| == 0 then "" else Concat(runs[..|runs| - 1]) + runs[|runs| - 1].text
  }

  lemma ConcatSnoc(runs: seq<TextRun>, r: TextRun)
    ensures Concat(runs + [r]) == Concat(runs) + r.text
  {
    assert (runs + [r])[..|runs|] == runs;
  }

  /** The runs of one sentence laid out as app.js:144-155 does: word `k`
      sits at position `2k` in the colour its paint gives, a white space run
      sits between each two words, so `n` words give `2n - 1` runs whose text
      is the words joined by single spaces. */
  predicate LaidOut(words: seq<string>, paints: seq<Paint>, runs: seq<TextRun>)
    requires |paints| == |words|
    requires forall k :: 0 <= k < |paints| ==> ValidPaint(paints[k])
  {
    && |runs| == (if |words| == 0 then 0 else 2 * |words| - 1)
    && (forall k :: 0 <= k < |words| ==>
          && runs[2 * k] == WordRun(words[k], paints[k])
          && (k + 1 < |words| ==> runs[2 * k + 1] == Space))
    && Concat(runs) == Join(words, " ")
  }

  /** The run of one word: its text at font size 20, white unless the
      paint recolours it with the colour `randomColor` draws. */
  function WordRun(word: string, p: Paint): (r: TextRun)
    requires ValidPaint(p)
    ensures r.text == word && r.fontSize == FontSize && IsColour(r.colour)
    ensures p.KeepWhite? ==> r.colour == White
    ensures p.Recolour? ==> r.colour == RandomColour(p.draws)
  {
    TextRun(word, PaintColour(p), FontSize)
  }

  /** The runs of `words`, built from the last word back: the runs of the
      earlier words, a space, then the last word. */
  function Interleave(words: seq<string>, paints: seq<Paint>): (runs: seq<TextRun>)
    requires |paints| == |words|
    requires forall k :: 0 <= k < |paints| ==> ValidPaint(paints[k])
    ensures |runs| == (if |words| == 0 then 0 else 2 * |words| - 1)
    decreases |words|
  {
    var n := |words|;
    if n == 0 then []
    else if n == 1 then [WordRun(words[0], paints[0])]
    else Interleave(words[..n - 1], paints[..n - 1]) + [Space, WordRun(words[n - 1], paints[n - 1])]
  }

  lemma ConcatTwo(runs: seq<TextRun>, a: TextRun, b: TextRun)
    ensures Concat(runs + [a, b]) == Concat(runs) + a.text + b.text
  {
    ConcatSnoc(runs, a);
    ConcatSnoc(runs + [a], b);
    assert runs + [a, b] == (runs + [a]) + [b];
  }

  /** Word `k` of an interleaving sits at `2k`, followed by a space unless
      it is the last. */
  lemma {:induction false} InterleavePositions(words: seq<string>, paints: seq<Paint>)
    requires |paints| == |words|
    requires forall k :: 0 <= k < |paints| ==> ValidPaint(paints[k])
    ensures var runs := Interleave(words, paints);
      forall k :: 0 <= k < |words| ==>
        && runs[2 * k] == WordRun(words[k], paints[k])
        && (k + 1 < |words| ==> runs[2 * k + 1] == Space)
    decreases |words|
  {
    var n := |words|;
    if n > 1 {
      var ws, ps := words[..n - 1], paints[..n - 1];
      var front := Interleave(ws, ps);
      InterleavePositions(ws, ps);
      var runs := Interleave(words, paints);
      forall k | 0 <= k < n
        ensures runs[2 * k] == WordRun(words[k], paints[k])
        ensures k + 1 < n ==> runs[2 * k + 1] == Space
      {
        if k < n - 1 {
          assert runs[2 * k] == front[2 * k];
          assert ws[k] == words[k] && ps[k] == paints[k];
        }
      }
    }
  }

  /** An interleaving shows the words joined by single spaces. */
  lemma {:induction false} InterleaveText(words: seq<string>, paints: seq<Paint>)
    requires |paints| == |words|
    requires forall k :: 0 <= k < |paints| ==> ValidPaint(paints[k])
    ensures Concat(Interleave(words, paints)) == Join(words, " ")
    decreases |words|
  {
    var n := |words|;
    if n == 1 {
      ConcatSnoc([], WordRun(words[0], paints[0]));
    } else if n > 1 {
      var ws, ps := words[..n - 1], paints[..n - 1];
      InterleaveText(ws, ps);
      ConcatTwo(Interleave(ws, ps), Space, WordRun(words[n - 1], paints[n - 1]));
      JoinSnoc(ws, words[n - 1], " ");
      assert ws + [words[n - 1]] == words;
    }
  }

  /** The interleaving has the layout of app.js:144-155. */
  lemma InterleaveLaidOut(words: seq<string>, paints: seq<Paint>)
    requires |paints| == |words|
    requires forall k :: 0 <= k < |paints| ==> ValidPaint(paints[k])
    ensures LaidOut(words, paints, Interleave(words, paints))
  {
    InterleavePositions(words, paints);
    InterleaveText(words, paints);
  }

  /** One more word extends the runs of the words before it by a space
      (unless it is the first) and its own run. */
  lemma InterleaveStep(words: seq<string>, paints: seq<Paint>, idx: nat)
    requires |paints| == |words| && idx < |words|
    requires forall k :: 0 <= k < |paints| ==> ValidPaint(paints[k])
    ensures Interleave(words[..idx + 1], paints[..idx + 1])
      == Interleave(words[..idx], paints[..idx]) + (if idx == 0 then [] else [Space])
         + [WordRun(words[idx], paints[idx])]
  {
    assert words[..idx + 1][..idx] == words[..idx];
    assert paints[..idx + 1][..idx] == paints[..idx];
  }

  /** The `words.forEach` loop of app.js:147-156. */
  method LayoutSentence(words: seq<string>, paints: seq<Paint>) returns (runs: seq<TextRun>)
    requires |paints| == |words|
    requires forall k :: 0 <= k < |paints| ==> ValidPaint(paints[k])
    ensures LaidOut(words, paints, runs)
  {
    runs := [];
    var idx := 0;
    while idx < |words|
      invariant 0 <= idx <= |words|
      invariant runs == Interleave(words[..idx], paints[..idx])
        + (if 0 < idx < |words| then [Space] else [])
    {
      InterleaveStep(words, paints, idx);
      runs := runs + [WordRun(words[idx], paints[idx])];
      if idx != |words| - 1 {
        runs := runs + [Space];
      }
      idx := idx + 1;
    }
    assert words[..idx] == words && paints[..idx] == paints;
    assert runs == Interleave(words, paints);
    InterleaveLaidOut(words, paints);
  }

  // ---------------------------------------------------------------------
  // Slides.
  // ---------------------------------------------------------------------

  const SummaryTitle: string := "Financial Summary"
  const ThankYou: string := "Thank You!\nDeepak Joshi"

  /** A slide of the deck: one per sentence, titled and holding its runs,
      and the closing slide with its fixed text. */
  datatype Slide = SummarySlide(title: string, runs: seq<TextRun>) | ClosingSlide(text: string)

  /** The paint of every word of every sentence: `paint(i, j)` decides word
      `j` of sentence `i`. */
  ghost predicate ValidPainter(paint: (nat, nat) -> Paint)
  {
    forall i: nat, j: nat :: ValidPaint(paint(i, j))
  }

  function PaintsOf(paint: (nat, nat) -> Paint, i: nat, n: nat): (ps: seq<Paint>)
    requires ValidPainter(paint)
    ensures |ps| == n && forall j :: 0 <= j < n ==> ps[j] == paint(i, j) && ValidPaint(ps[j])
  {
    seq(n, j requires 0 <= j < n => paint(i, j))
  }

  /** The slide of sentence `i`: titled, with that sentence's words laid out. */
  predicate SentenceSlide(sentence: string, i: nat, paint: (nat, nat) -> Paint, slide: Slide)
    requires ValidPainter(paint)
  {
    var words := Words(sentence);
    slide.SummarySlide? && slide.title == SummaryTitle
    && LaidOut(words, PaintsOf(paint, i, |words|), slide.runs)
  }

  /** The slides `generatePPTFromSummary` adds, in order. */
  method GenerateSlides(summary: string, paint: (nat, nat) -> Paint) returns (slides: seq<Slide>)
    requires ValidPainter(paint)
    ensures |slides| == |Sentences(summary)| + 1
    ensures forall i :: 0 <= i < |Sentences(summary)| ==>
      SentenceSlide(Sentences(summary)[i], i, paint, slides[i])
    ensures slides[|slides| - 1] == ClosingSlide(ThankYou)
  {
    var sentences := Sentences(summary);
    slides := [];
    var i := 0;
    while i < |sentences|
      invariant 0 <= i <= |sentences|
      invariant |slides| == i
      invariant forall k :: 0 <= k < i ==> SentenceSlide(sentences[k], k, paint, slides[k])
    {
      var words := Words(sentences[i]);
      var runs := LayoutSentence(words, PaintsOf(paint, i, |words|));
      slides := slides + [SummarySlide(SummaryTitle, runs)];
      i := i + 1;
    }
    slides := slides + [ClosingSlide(ThankYou)];
  }

  /** Each summary slide shows its sentence with every run of white space
      collapsed to one space. */
  lemma SlideShowsSentence(sentence: string, i: nat, paint: (nat, nat) -> Paint, slide: Slide)
    requires ValidPainter(paint)
    requires SentenceSlide(sentence, i, paint, slide)
    ensures Concat(slide.runs) == Collapse(sentence)
  {
    WordsCollapse(sentence);
  }
}

=== FILE: text.dfy ===
/** Character classes of JavaScript regular expressions and the two string
    operations of `String.prototype` that the server relies on: `join` and
    `split` on a one-character separator. */
module Text {

  /** The characters JavaScript's `.` refuses to match outside `s` (dotAll) mode. */
  predicate IsLineTerminator(c: char)
  {
    c == '\n' || c == '\r' || c == '\U{2028}' || c == '\U{2029}'
  }

  /** The class `[\d,.]`: an ASCII digit, a comma or a full stop. */
  predicate IsNumChar(c: char)
  {
    ('0' <= c <= '9') || c == ',' || c == '.'
  }

  /** The class `\s`: JavaScript white space and line terminators. */
  predicate IsSpace(c: char)
  {
    || c == '\t' || c == '\n' || c == '\U{000B}' || c == '\U{000C}' || c == '\r' || c == ' '
    || c == '\U{00A0}' || c == '\U{1680}' || ('\U{2000}' <= c <= '\U{200A}')
    || c == '\U{2028}' || c == '\U{2029}' || c == '\U{202F}' || c == '\U{205F}'
    || c == '\U{3000}' || c == '\U{FEFF}'
  }

  /** Case folding of a case-insensitive (`/i`, non-unicode) pattern for the
      ASCII letters the labels are written in: lower case goes to upper case,
      and no other character folds onto an ASCII letter. */
  function Fold(c: char): (u: char)
    ensures 'a' <= c <= 'z' ==> 'A' <= u <= 'Z' && u as int == c as int - 32
    ensures !('a' <= c <= 'z') ==> u == c
  {
    if 'a' <= c <= 'z' then (c as int - 32) as char else c
  }

  /** Characters that fold alike agree on every class a label or a capture
      tests, and a character of `[\d,.]` folds alike only with itself. */
  lemma FoldKeepsClasses(c: char, d: char)
    requires Fold(c) == Fold(d)
    ensures IsLineTerminator(c) <==> IsLineTerminator(d)
    ensures IsNumChar(c) <==> IsNumChar(d)
    ensures IsNumChar(c) ==> c == d
  {
  }

  /** `parts.join(sep)`. */
  function Join(parts: seq<string>, sep: string): string
    decreases |parts|
  {
    if |parts| == 0 then ""
    else if |parts| == 1 then parts[0]
    else parts[0] + sep + Join(parts[1..], sep)
  }

  /** Joining a part in front of others puts the separator after it. */
  lemma JoinCons(x: string, parts: seq<string>, sep: string)
    requires |parts| >= 1
    ensures Join([x] + parts, sep) == x + sep + Join(parts, sep)
  {
    assert ([x] + parts)[1..] == parts;
  }

  /** Joining one more part appends the separator and that part. */
  lemma {:induction false} JoinSnoc(parts: seq<string>, x: string, sep: string)
    requires |parts| >= 1
    ensures Join(parts + [x], sep) == Join(parts, sep) + sep + x
    decreases |parts|
  {
    if |parts| == 1 {
      assert (parts + [x])[1..] == [x];
    } else {
      assert (parts + [x])[1..] == parts[1..] + [x];
      JoinSnoc(parts[1..], x, sep);
    }
  }

  /** `s.split(sep)` for a one-character string separator: there is always at
      least one piece, and the empty string splits into one empty piece. */
  function SplitOn(s: string, sep: char): (pieces: seq<string>)
    ensures |pieces| >= 1
    ensures forall k, m :: 0 <= k < |pieces| && 0 <= m < |pieces[k]| ==> pieces[k][m] != sep
    decreases |s|
  {
    if |s| == 0 then [""]
    else if s[0] == sep then [""] + SplitOn(s[1..], sep)
    else
      var rest := SplitOn(s[1..], sep);
      [[s[0]] + rest[0]] + rest[1..]
  }

  /** Splitting a separator-free prefix followed by anything glues the prefix
      onto the first piece of the rest. */
  lemma {:induction false} SplitOnPrefix(x: string, t: string, sep: char)
    requires forall m :: 0 <= m < |x| ==> x[m] != sep
    ensures SplitOn(x + t, sep) == [x + SplitOn(t, sep)[0]] + SplitOn(t, sep)[1..]
    decreases |x|
  {
    if |x| > 0 {
      assert (x + t)[1..] == x[1..] + t;
      SplitOnPrefix(x[1..], t, sep);
      assert [x[0]] + (x[1..] + SplitOn(t, sep)[0]) == x + SplitOn(t, sep)[0];
    } else {
      var pieces := SplitOn(t, sep);
      assert x + t == t;
      assert x + pieces[0] == pieces[0];
      assert [pieces[0]] + pieces[1..] == pieces;
    }
  }

  /** Splitting undoes joining when no part contains the separator. */
  lemma {:induction false} SplitJoin(parts: seq<string>, sep: char)
    requires |parts| >= 1
    requires forall k, m :: 0 <= k < |parts| && 0 <= m < |parts[k]| ==> parts[k][m] != sep
    ensures SplitOn(Join(parts, [sep]), sep) == parts
    decreases |parts|
  {
    if |parts| == 1 {
      SplitOnPrefix(parts[0], "", sep);
      assert parts[0] + "" == parts[0];
    } else {
      var tail := Join(parts[1..], [sep]);
      SplitJoin(parts[1..], sep);
      assert Join(parts, [sep]) == parts[0] + ([sep] + tail);
      SplitOnPrefix(parts[0], [sep] + tail, sep);
      assert ([sep] + tail)[1..] == tail;
      assert SplitOn([sep] + tail, sep) == [""] + parts[1..];
      assert parts[0] + "" == parts[0];
      assert [parts[0]] + parts[1..] == parts;
    }
  }
}

=== FILE: wrappers.dfy ===
/** The `Option` and `Result` datatypes shared by the modules of this model:
    `Option` stands for a JavaScript value that may be `undefined`,
    `Result` for a call that either returns or throws. */
module Wrappers {

  /** A value that may be absent; `None` is JavaScript's `undefined`. */
  datatype Option<+T> = None | Some(value: T)

  /** The outcome of a call that either returns a value or throws an error. */
  datatype Result<+R, +E> = Success(value: R) | Failure(error: E)
}
